=== FILE: README.md ===
# A verified model of Sourcegraph's repository coordination core

This project is a Dafny model of the coordination layer of a multi-tenant
code-hosting server. That layer sits over a cluster of git storage daemons
("gitserver shards"). The model covers seven parts of it:

- **Shard placement and repository lifecycle** (`gitserver.dfy`,
  `pkg/gitserver/management.go`). A new repository goes to the shard picked
  by its name: the first eight bytes of the name's md5 sum, read as a
  big-endian 64-bit number, modulo the number of shards. Before that, the cluster is probed, and an existing repository is
  refused. The `Git` class models one shard's receiver: its `Create` runs
  `git clone --mirror` or `git init --bare`, and its `Remove` deletes a
  repository directory and everything below it.
- **The git smart-transport service** (`git_transport.dfy`,
  `server/local/git_transport.go`). InfoRefs and UploadPack pass straight
  through to the repository's transport. ReceivePack runs the write check
  first, then the push. It then collapses adjacent duplicate push events and
  calls every post-push hook with them, in order. The effects come back as a
  trace, so their order can be stated.
- **Access decisions** (`access_control.dfy`,
  `server/internal/accesscontrol/user_perms.go`).
  - Write access is granted in three cases: the server has no user accounts;
    the actor is unauthenticated but holds a suitable token scope; or the
    actor is authenticated and, under restrict-write, also passes the admin
    check.
  - The admin check reads the user record in local mode and asks the root
    server on a satellite.
- **The OAuth2 authorization-code store** (`authorizations.dfy`,
  `server/internal/store/fs/authorizations.go`). A class holds the database
  file's state. It creates codes and exchanges them, and it purges expired
  codes whenever it writes. The main theorem is that a code is exchanged at
  most once.
- **Federation routing tables of the generated middleware** (`middleware.dfy`,
  `server/internal/middleware/gen_middleware.go`). They say which services
  are federated and which methods have a custom federation handler. One
  generated wrapper method first authenticates, then picks one of four
  routes: custom handler, repository-federated, user-federated or direct.
- **The gzip middleware** (`gzip.dfy`, `util/httputil/gzip.go`).
  - Its header rules cover Vary, Accept-Encoding, Content-Encoding and
    Content-Length, and which content types are compressed by default.
  - In the `gzipResponseWriter` state machine, the filter runs once, at the
    first `Write` or `WriteHeader`, and latches `dogzip`. After that, every body byte goes one
    way: to the compressor or to the client.
- **Repository identity** (`repos.dfy`, `cmd/repo-updater/repos/repo.go`).
  `Repo.ID` reads back as its external spec when the service type and
  service ID contain no ':'. Service IDs are usually base URLs, which do
  contain ':'; within one external service, IDs are still equal exactly when
  the external IDs are (`SpecIDInjectiveWithinService`). Across services the
  ID is not unique, which contradicts the "globally unique identifier" doc
  comment at `cmd/repo-updater/repos/repo.go:39-40`: `SpecIDCollision` gives
  two different specs with the same ID. `Repo.Clone` is a fresh,
  independent copy.

`base.dfy` holds the shared vocabulary: results, Go errors with their gRPC
codes, bytes, and the few `strings` helpers the core uses.

One error carries no gRPC code: `create` (`pkg/gitserver/management.go:64-66`)
returns `errors.New("repository already exists")`, not a status with the
AlreadyExists code, so `Gitserver.Create` returns
`Plain("repository already exists")`.

## Model

| member | source | states |
|---|---|---|
| AccessControl.VerifyUserHasWriteAccess | server/internal/accesscontrol/user_perms.go:24-68 | The scan over the actor's scopes, with its early returns, gives exactly the write decision: allow when the server has no user accounts; for an unauthenticated actor, allow iff a scope grants write, else Unauthenticated; under restrict-write, the admin check's answer; otherwise allow |
| AccessControl.VerifyUserHasAdminAccess | server/internal/accesscontrol/user_perms.go:70-110 | Access is granted exactly when the server has no user accounts or the actor's Admin flag (local user record or root server) is set; a failed lookup is returned as produced, and a non-admin gets PermissionDenied |
| AccessControl.NoUserAccountsAllowsAll | server/internal/accesscontrol/user_perms.go:24-74 | Without user accounts, both the write check and the admin check grant access to everyone |
| AccessControl.UnauthenticatedWrite | server/internal/accesscontrol/user_perms.go:31-55 | An unauthenticated actor may write iff it holds "internal:cli", or holds "worker:build" and the method starts with "Builds."; otherwise the error is an Unauthenticated status whose message names the method |
| AccessControl.AuthenticatedWrite | server/internal/accesscontrol/user_perms.go:58-66 | An authenticated actor gets the admin check's answer under restrict-write, and is always allowed to write otherwise |
| AccessControl.ScopeOrderIrrelevant | server/internal/accesscontrol/user_perms.go:44-54 | Reordering the actor's scopes (the same multiset) does not change the write decision, although the scan stops at the first granting scope |
| AccessControl.MoreScopesKeepWrite | server/internal/accesscontrol/user_perms.go:44-54 | Adding scopes never takes write access away |
| AccessControl.AdminImpliesWrite | server/internal/accesscontrol/user_perms.go:58-60 | For an authenticated actor, passing the admin check implies passing the write check |
| AccessControl.LocalAdminCheck | server/internal/accesscontrol/user_perms.go:79-85 | In local mode, the local user record of int32(UID) decides: allowed iff Admin; a failed lookup is an Internal status whose message names the method and the UID |
| AccessControl.LookupFailedMessageNames | server/internal/accesscontrol/user_perms.go:83 | The lookup-failure message contains the method name and the decimal UID |
| AccessControl.SatelliteAdminCheck | server/internal/accesscontrol/user_perms.go:86-104 | On a satellite, an error from discovering the root endpoint, or from the root's GetUserPermissions for (int32(UID), client ID), is returned unchanged; otherwise the root's Admin flag decides |
| AccessControl.NonAdminDenied | server/internal/accesscontrol/user_perms.go:106-109 | A user whose Admin flag is false is refused with a PermissionDenied status naming the method |
| GitTransport.CollapseDuplicateEvents | server/local/git_transport.go:72-82 | The loop, which keeps an event only when it differs from the previous one (starting from the zero event), computes the collapse of the input |
| GitTransport.CollapsedHasNoAdjacentDuplicates | server/local/git_transport.go:70-82 | No two adjacent events of the result are equal |
| GitTransport.CollapsedIsSubsequence | server/local/git_transport.go:72-82 | The result only deletes events: it is a subsequence of the input, in order |
| GitTransport.CollapsedKeepsEveryEvent | server/local/git_transport.go:72-82 | Every event other than the zero event occurs in the result iff it occurs in the input |
| GitTransport.CollapseIdempotent | server/local/git_transport.go:72-82 | Collapsing twice is the same as collapsing once |
| GitTransport.RunsCollapse | server/local/git_transport.go:70-82 | Only adjacent repeats collapse: [A, A, B, B, A] becomes [A, B, A] |
| GitTransport.LeadingZeroEventDropped | server/local/git_transport.go:73-79 | The empty list stays empty, and a leading zero event is dropped because it equals the initial previous event |
| GitTransport.InfoRefs | server/local/git_transport.go:20-32 | No access check: succeeds iff the transport opens and its InfoRefs succeeds, returning that data; a failure to open, and an error of the transport's InfoRefs, are each returned unchanged |
| GitTransport.UploadPack | server/local/git_transport.go:34-46 | No access check: succeeds iff the transport opens and its UploadPack with the request's content encoding succeeds, returning the pack data (events discarded); a failure to open, and an error of the transport's UploadPack, are each returned unchanged |
| GitTransport.ReceivePack | server/local/git_transport.go:48-68 | A refused write check returns its error before anything else happens; failures to open or push stop at that step; on success, the trace is open, push, then one call per post-push hook in order, each given the collapsed events; the response is the push's data |
| Gitserver.Uint64 | pkg/gitserver/management.go:78 | The first eight bytes, read big-endian, are below 2^64 |
| Gitserver.Uint64RoundTrip | pkg/gitserver/management.go:78 | Big-endian decoding and encoding of eight bytes are inverse to each other |
| Gitserver.ServerIndex | pkg/gitserver/management.go:77-78 | The chosen shard index is a valid index into the shard list |
| Gitserver.Create | pkg/gitserver/management.go:60-88 | Every create starts by probing the repository with `git remote` |
| Gitserver.CreateRefusesExisting | pkg/gitserver/management.go:61-66 | A repository whose probe succeeds is refused with "repository already exists", and no shard is asked |
| Gitserver.CreatePropagatesProbeError | pkg/gitserver/management.go:67-69 | A probe error other than ErrRepoNotExist is returned unchanged, and no shard is asked |
| Gitserver.CreateDispatchesToOwner | pkg/gitserver/management.go:77-87 | For a missing repository, exactly one Git.Create carrying the name, remote and options is sent, to the shard the name hashes to, and that shard's answer is the result |
| Gitserver.ShardDependsOnNameOnly | pkg/gitserver/management.go:77-78 | The chosen shard depends only on the name and the shard count, not on the remote or the options |
| Gitserver.Init | pkg/gitserver/management.go:46-48 | Init probes first, and whatever it sends asks for a repository with no remote and no options |
| Gitserver.InitAndCloneArgs | pkg/gitserver/management.go:46-55 | Init asks the owning shard for a repository with no remote and no options; Clone with a remote asks it for a mirror of that remote |
| Gitserver.Clone | pkg/gitserver/management.go:50-55 | An empty remote is refused with "empty remote" before anything is probed or sent, on any cluster; any other remote behaves as create |
| Gitserver.CloneEmptyRemote | pkg/gitserver/management.go:51-53 | Clone with an empty remote fails with "empty remote" and takes no steps, whatever the cluster, even one with no shards |
| Gitserver.RemoveReply.constructor | pkg/gitserver/management.go:94-96 | A new reply says the repository did not exist |
| Gitserver.Git.Create | pkg/gitserver/management.go:24-44 | Runs `git clone --mirror REMOTE DIR` when a remote is given and `git init --bare DIR` otherwise; on success the directory and every missing directory above it (one per '/' in the name) exist, and the directory is a repository; on failure the error names the repository and ends with the command's output, and the shard is unchanged |
| Gitserver.CreateThenRemoveParent | pkg/gitserver/management.go:24-44 | After a nested repository a/b is created, removing a finds an existing directory that is not a repository: RepoExists is set and the removal is refused with "not a repository: a" |
| Gitserver.Git.Remove | pkg/gitserver/management.go:102-116 | A missing directory is a success that changes nothing and does not set RepoExists; an existing one sets RepoExists; a directory that is not a repository is refused with "not a repository: NAME"; otherwise the directory and everything below it are deleted, or RemoveAll's error is returned |
| Gitserver.RemoveTwice | pkg/gitserver/management.go:102-116 | After a successful removal of a repository, removing it again succeeds and leaves a fresh reply saying the repository did not exist; afterwards exactly the paths at or below the repository's directory are gone from the shard, and every other directory and repository remains |
| Authorizations.ExpiryIsFinal | server/internal/store/fs/authorizations.go:29-31 | A code is still valid at its expiry instant and expired strictly after it; once expired, it stays expired |
| Authorizations.RemoveExpiredAuthCodes | server/internal/store/fs/authorizations.go:145-153 | The loop keeps exactly the unexpired codes, in order |
| Authorizations.UnexpiredMembers | server/internal/store/fs/authorizations.go:145-153 | A code survives the purge iff it was in the list and has not expired |
| Authorizations.UnexpiredIsSubsequence | server/internal/store/fs/authorizations.go:145-153 | The purge only deletes: the survivors are a subsequence of the input |
| Authorizations.UnexpiredIdempotent | server/internal/store/fs/authorizations.go:143-153 | Purging twice at the same instant removes nothing more |
| Authorizations.UnexpiredAppend | server/internal/store/fs/authorizations.go:145-153 | Purging a concatenation is concatenating the purges |
| Authorizations.ReadAuthCodesDB | server/internal/store/fs/authorizations.go:33-50 | A missing file reads as the empty list with no error; the read fails iff the file cannot be opened or decoded; a stored list is returned as stored |
| Authorizations.FirstMatch | server/internal/store/fs/authorizations.go:117-123 | The search finds the first code with the presented code and redirect URI, issued to the client, and not expired; finding none means no code matches |
| Authorizations.SecondExchangeRefused | server/internal/store/fs/authorizations.go:128-140 | After a successful exchange, exchanging the same code again at the same instant, against the list that was written back, fails with ErrAuthCodeAlreadyExchanged |
| Authorizations.ExchangeAtMostOnce | server/internal/store/fs/authorizations.go:110-141 | When code strings are distinct, a second exchange of an exchanged code fails at any later instant |
| Authorizations.CreatedCodeExchangeable | server/internal/store/fs/authorizations.go:85-141 | A code just created with a non-negative lifetime, presented with its redirect URI by its own client at any instant from its creation up to its expiry, is exchanged for the request it was created from |
| Authorizations.Authorizations.WriteAuthCodesDB | server/internal/store/fs/authorizations.go:53-78 | A successful write leaves exactly the given list in the file; the write's error is returned |
| Authorizations.Authorizations.CreateAuthCode | server/internal/store/fs/authorizations.go:85-108 | The self-or-admin check (for "Authorizations.CreateAuthCode" and the request's UID) and a read error both stop before any write, returning their error; a failed write returns the write's error and leaves the file as it was; otherwise the new code, expiring `expires` after now, is appended, the unexpired list is written, and the 40-character code is returned |
| Authorizations.Authorizations.MarkExchanged | server/internal/store/fs/authorizations.go:110-141 | A missing code gives ErrAuthCodeNotFound, and an already exchanged one ErrAuthCodeAlreadyExchanged, both with nothing written; otherwise the first match is marked exchanged, the unexpired list is written, and its request is returned |
| Middleware.ServiceIsFederated | server/internal/middleware/gen_middleware.go:21-27 | serviceIsFederated holds exactly for the fourteen listed services |
| Middleware.MethodHasCustomFederation | server/internal/middleware/gen_middleware.go:29-66 | Only the services the switch names have custom-federated methods, and each of them is a federated service |
| Middleware.RegisteredClientsAllCustom | server/internal/middleware/gen_middleware.go:60-62 | Every RegisteredClients method has custom federation |
| Middleware.ReposAndAccountsCustom | server/internal/middleware/gen_middleware.go:31-50 | For Repos, custom federation holds exactly for Create, Get and List; for Accounts, exactly for Update |
| Middleware.UsersCustom | server/internal/middleware/gen_middleware.go:53-59 | For Users, custom federation holds exactly for Get, CheckWhitelist and AddToWhitelist |
| Middleware.OtherServicesCustom | server/internal/middleware/gen_middleware.go:33-52 | For Auth, exactly GetAccessToken and Identify; for Builds and Defs, exactly List; for MirrorRepos, exactly RefreshVCS |
| Middleware.RouteOf | server/internal/middleware/gen_middleware.go:149-158 | The custom route is taken exactly for custom-federated methods; the direct route only when the service is not federated or the parameter yields neither a repository URI nor a user spec |
| Middleware.Invoke | server/internal/middleware/gen_middleware.go:137-171 | A wrapper takes one to three steps, authentication first; the method itself (custom handler or service) runs at most once, only as the last step, and its answer is the wrapper's |
| Middleware.AuthenticatesFirst | server/internal/middleware/gen_middleware.go:144-147 | Every wrapper first authenticates as "Service.Method", and an authentication error ends the call with that error |
| Middleware.CustomDelegates | server/internal/middleware/gen_middleware.go:149-151 | A custom-federated method is delegated to its custom handler, and nothing else is called |
| Middleware.FederationChoice | server/internal/middleware/gen_middleware.go:152-158 | Without custom federation, federation is consulted iff the service is federated and the parameter yields a repository URI or a user spec; the repository URI is preferred |
| Middleware.FederatedCallsAfterLookup | server/internal/middleware/gen_middleware.go:156-169 | A failed federation lookup is returned before any call; otherwise the method is called once, on the rebound service when the lookup gave a context, and on the wrapped one when it gave none |
| Middleware.UnfederatedIsLocal | server/internal/middleware/gen_middleware.go:149-169 | A method of a service that is not federated always calls the wrapped service directly |
| Gzip.SetVaryHeader | util/httputil/gzip.go:116-120 | Afterwards the response varies on Accept-Encoding; a header that already did is unchanged; other headers are untouched, and an existing Vary list is only extended |
| Gzip.SetVaryIdempotent | util/httputil/gzip.go:115-120 | Setting the Vary header twice is the same as setting it once |
| Gzip.AcceptsGzipAdd | util/httputil/gzip.go:123-129 | One more Accept-Encoding value makes the client accept gzip iff it already did, or the value contains "gzip", or it is "*" |
| Gzip.AcceptsGzipOnlyAcceptEncoding | util/httputil/gzip.go:123-129 | Headers other than Accept-Encoding never change whether the client accepts gzip |
| Gzip.AcceptsGzipExamples | util/httputil/gzip.go:123-129 | "gzip, deflate" and "*" accept gzip; a request without Accept-Encoding does not |
| Gzip.SetGzipHeaders | util/httputil/gzip.go:131-135 | Content-Encoding becomes exactly "gzip", Content-Length is removed, and every other header is kept |
| Gzip.DefaultFilter | util/httputil/gzip.go:64-73 | Trying the default types in order, with an early return, yields true iff the Content-Type matches one of them |
| Gzip.CompressibleTypes | util/httputil/gzip.go:53-73 | The default filter accepts exactly the Content-Types containing "text", "javascript" or "json" |
| Gzip.JsonIsCompressible | util/httputil/gzip.go:61-73 | An application/json response is compressed by default |
| Gzip.DecisionLatched | util/httputil/gzip.go:21-28 | Once the filter has run, later writes never change the gzip decision |
| Gzip.WritesLatched | util/httputil/gzip.go:21-46 | Nothing is written before the filter runs; after that, every body byte goes to the compressor when gzip was chosen, and to the client otherwise |
| Gzip.GzipResponseWriter.ApplyFilter | util/httputil/gzip.go:21-28 | The filter is called only the first time, and its answer is kept; on yes the gzip headers are set; the filter-call count stays at most one |
| Gzip.GzipResponseWriter.Write | util/httputil/gzip.go:32-40 | After applying the filter, the bytes go to the compressor iff dogzip, and otherwise to the client's writer; the count and error that writer reports are returned unchanged |
| Gzip.GzipResponseWriter.WriteHeader | util/httputil/gzip.go:43-46 | The filter runs, and on yes sets the gzip headers, before the status is passed on to the client's writer |
| Gzip.ServePlain | util/httputil/gzip.go:88-95 | Serving the handler on the client's own writer (for HEAD requests and clients without gzip) gives exactly the plain run of its script: no filter, no compressor |
| Gzip.ServeGzipped | util/httputil/gzip.go:106 | Running the handler through a gzipResponseWriter gives the state machine's result, and the compressor stays open |
| Gzip.Gzip | util/httputil/gzip.go:79-113 | The Vary header is always set. A HEAD request, or a client that does not accept gzip, is served on the original writer. Otherwise the handler writes through a fresh gzipResponseWriter, using the default filter when none is given, and the compressor is closed iff gzip was chosen |
| Repos.Repo.ID | cmd/repo-updater/repos/repo.go:41-43 | The ID reads back as the repository's external spec when the service type and service ID contain no ':' |
| Repos.ParseSpecIDRoundTrip | cmd/repo-updater/repos/repo.go:41-43 | When the service type and service ID contain no ':', the ID reads back as the external spec it was built from |
| Repos.SpecIDInjective | cmd/repo-updater/repos/repo.go:39-43 | Under that condition, two specs have the same ID iff they are equal |
| Repos.SpecIDInjectiveWithinService | cmd/repo-updater/repos/repo.go:41-43 | Within one external service, repos have the same ID iff they have the same external ID, even when the service ID contains ':' |
| Repos.SpecIDCollision | cmd/repo-updater/repos/repo.go:39-43 | Without the condition, IDs can collide: a service ID containing ':' can clash with an external ID that contains ':' |
| Repos.IDDependsOnExternalRepoOnly | cmd/repo-updater/repos/repo.go:41-43 | Repos with the same external spec have the same ID, whatever their other fields |
| Repos.Repo.Clone | cmd/repo-updater/repos/repo.go:45-48 | The clone is a new object whose fields all equal the original's |
| Repos.CloneAndRename | cmd/repo-updater/repos/repo.go:46-48 | Renaming a clone leaves the original unchanged, and the two keep the same ID |

## Left out

- I/O, processes and the network are outside the model. Each is a
  parameter: the results of git commands, RPC calls, file reads and writes,
  user lookups and federation lookups.
- The clock: one `now` per call stands in for the source's separate
  `time.Now()` calls within one operation.
- Concurrency: the auth-code file has no lock around its read-modify-write,
  and shards run in parallel. Neither is modelled.
- Gitserver.Create: requires at least one shard whenever a shard must be
  chosen, because Go's `%` panics on zero shards. The panic is not modelled.
- The fnv hash in `create` is computed and never used, and writing to it
  cannot fail. It is not modelled.
- The cluster-wide `Remove` (`pkg/gitserver/management.go:118-125`) goes
  through `broadcastCall`, which is not part of this model. The accessor
  `RemoveReply.repoExists` is trivial and is left out too.
- The RPC mechanics of `create` are one call oracle: the call is sent on the
  shard's channel and the answer read from `done`.
- Gitserver.Git.Dir: `path.Join` is modelled as `ReposDir + "/" + name` for
  clean names. Path cleaning is not modelled.
- Gitserver.Git.Remove: `os.Stat` errors other than "not exist" are not
  modelled. A failed `os.RemoveAll` is modelled as removing nothing.
- Gitserver.Git.Create: a failed command is modelled as leaving the shard
  unchanged, though git may already have created the directory or its leading
  directories.
  The credential handling of `runWithRemoteOpts` is not modelled.
- Error texts: the sentinel errors (ErrRepoNotExist and the two auth-code
  errors) are in packages that are not part of this model. They are
  represented by their names, and `%v` of an error is its message.
- GitTransport: the store and the transport are oracles, and the post-push
  hooks' own effects are not modelled; only their calls and order are.
  An event is compared on the fields modelled here, where the source uses
  `reflect.DeepEqual` on `githttp.Event`.
- AccessControl.SatelliteAdminCheck: the context rebinding to the root
  endpoint is folded into the permissions lookup, which receives the
  endpoint.
- Authorizations.Authorizations.CreateAuthCode: requires the new code to
  have 40 characters, standing in for `randstring.NewLen(40)`. The
  self-or-admin check (`accesscontrol.VerifyUserSelfOrAdmin`) is not part of
  this model and is a parameter.
- Authorizations.Authorizations.WriteAuthCodesDB: a failed write leaves the
  file as it was. In reality, `Create` may already have truncated it. JSON
  encoding, `MkdirAll` and the merging of close errors are not modelled.
- Authorizations.Matches: `subtle.ConstantTimeCompare(...) == 1` is modelled
  as string equality. The constant-time property is not modelled, and
  neither is the warning logged on a second exchange.
- Middleware: the generator itself is not modelled: `main`,
  `gen.Generate`, template rendering, and the AST inspection behind
  `repoURIExpr` and `userSpecExpr`. The two expressions are inputs of a
  method's description. Tracing (`trace.Before`/`trace.After`) and timing
  are not modelled.
- Middleware: `Wrap` only replaces each non-nil service with its wrapper.
  The struct of services is not modelled.
- Federation discovery (resolving a repository to its authority) is not part
  of this model. Its answer is the `repoContext`/`userContext` lookup.
- Gzip.HeaderMatch: the source of `HeaderMatch` is not part of this model.
  The model assumes this behaviour: some value of the header, lower-cased and
  trimmed of blanks, contains or equals the lower-cased test string.
- Base.ToLower: lower-cases ASCII letters only. Go's `strings.ToLower` also
  maps other Unicode letters (for example U+0130 to 'i'), so header values
  outside ASCII may match differently.
- Gzip: the compression algorithm is not modelled. The compressor records
  the bytes it received and whether it was closed. None of its output to the
  client is recorded: not the gzip header it writes on the first `Write`, not
  the blocks it flushes during `Write`, and not what it writes on `Close`. So
  "the client gets no uncompressed body" (`Gzip.Gzip`, `Gzip.WritesLatched`)
  speaks of the bytes the handler wrote, not of the compressed stream.
- Gzip: the client's `http.ResponseWriter` and the compressor record every
  slice they are handed, whatever count or error their `Write` reports (the
  reported result is an input, passed through unchanged); a short write's
  effect on what the client receives is not modelled.
- Gzip: the client's `http.ResponseWriter` records what it is sent. Go's
  implicit 200 status and its ignoring of a second WriteHeader are not
  modelled.
- Gzip: the wrapped handler is a straight-line script of header edits and
  writes. A handler that panics is not modelled (in that case the source
  skips `gz.Close()`). Header names are assumed canonical.
- Gzip: `WrappedWriter` only returns the embedded writer, and is left out.
- Repos: `time.Time` fields are integers, and `api.RepoName` is a string.

=== FILE: access_control.dfy ===
/** The write and admin access decisions of server/internal/accesscontrol/user_perms.go.
    The deployment flags, the actor of the request and the two user lookups
    (the local Users service and the root server's RegisteredClients service)
    are inputs: the decisions are functions of them. */
module AccessControl {
  import opened Base

  /** The fields of authutil.ActiveFlags that the checks consult. */
  datatype Flags = Flags(hasUserAccounts: bool, restrictWriteAccess: bool, isLocal: bool)

  /** The actor of the request context (auth.ActorFromContext). */
  datatype Actor = Actor(authenticated: bool, uid: int, clientID: string, scope: seq<string>)

  /** What the admin check can ask about a user. Each lookup yields the user's
      Admin flag or the error of the call.
      - usersGet: svc.Users(ctx).Get for a UID, on this server;
      - rootGRPCEndpoint: fed.Config.RootGRPCEndpoint();
      - getUserPermissions: RegisteredClients.GetUserPermissions at an endpoint,
        for a UID and a client ID. */
  datatype Directory = Directory(
    usersGet: int -> Result<bool>,
    rootGRPCEndpoint: Result<string>,
    getUserPermissions: (string, int, string) -> Result<bool>)

  /** Everything a check reads from the process and the request context. */
  datatype Context = Context(flags: Flags, actor: Actor, directory: Directory)

  const InternalCLIScope := "internal:cli"
  const WorkerBuildScope := "worker:build"
  const BuildsPrefix := "Builds."

  /** One token scope grants write access to `methodName`. */
  predicate ScopeGrantsWrite(scope: string, methodName: string)
  {
    scope == InternalCLIScope || (scope == WorkerBuildScope && HasPrefix(methodName, BuildsPrefix))
  }

  predicate AnyScopeGrantsWrite(scopes: seq<string>, methodName: string)
  {
    exists i :: 0 <= i < |scopes| && ScopeGrantsWrite(scopes[i], methodName)
  }

  function WriteDeniedMessage(methodName: string): string
  {
    "write operation (" + methodName + ") denied: no authenticated user in current context"
  }

  function AdminLookupFailedMessage(methodName: string, uid: int, e: Error): string
  {
    "admin operation (" + methodName + ") denied: could not complete permissions check for user "
      + Decimal(uid) + ": " + Text(e)
  }

  function AdminDeniedMessage(methodName: string): string
  {
    "admin operation (" + methodName + ") denied: user does not have admin status"
  }

  /** The actor's Admin flag, from the local user store in local mode and from
      the root server otherwise; the UID is converted with int32(...). */
  function AdminFlag(ctx: Context, methodName: string): Result<bool>
  {
    var actor := ctx.actor;
    if ctx.flags.isLocal then
      match ctx.directory.usersGet(ToInt32(actor.uid))
      case Failure(e) => Failure(Status(Internal, AdminLookupFailedMessage(methodName, actor.uid, e)))
      case Success(isAdmin) => Success(isAdmin)
    else
      match ctx.directory.rootGRPCEndpoint
      case Failure(e) => Failure(e)
      case Success(url) => ctx.directory.getUserPermissions(url, ToInt32(actor.uid), actor.clientID)
  }

  /** VerifyUserHasAdminAccess: None means access is granted, which happens
      exactly when the server has no user accounts or the actor's Admin flag
      is set; a failed lookup is reported as it was produced, and a user who
      is not an admin gets PermissionDenied. */
  function VerifyUserHasAdminAccess(ctx: Context, methodName: string): (r: Option<Error>)
    ensures r.None? <==> !ctx.flags.hasUserAccounts || AdminFlag(ctx, methodName) == Success(true)
    ensures ctx.flags.hasUserAccounts && AdminFlag(ctx, methodName).Failure? ==>
      r == Some(AdminFlag(ctx, methodName).error)
    ensures ctx.flags.hasUserAccounts && AdminFlag(ctx, methodName) == Success(false) ==>
      r.Some? && r.value.Status? && r.value.code == PermissionDenied
  {
    if !ctx.flags.hasUserAccounts then None
    else
      match AdminFlag(ctx, methodName)
      case Failure(e) => Some(e)
      case Success(isAdmin) =>
        if !isAdmin then Some(Status(PermissionDenied, AdminDeniedMessage(methodName))) else None
  }

  /** The decision VerifyUserHasWriteAccess takes, as a function: None means
      access is granted. */
  function WriteAccess(ctx: Context, methodName: string): Option<Error>
  {
    if !ctx.flags.hasUserAccounts then None
    else if !ctx.actor.authenticated then
      if AnyScopeGrantsWrite(ctx.actor.scope, methodName) then None
      else Some(Status(Unauthenticated, WriteDeniedMessage(methodName)))
    else if ctx.flags.restrictWriteAccess then VerifyUserHasAdminAccess(ctx, methodName)
    else None
  }

  /** VerifyUserHasWriteAccess, with its scan of the actor's scopes and its
      early returns. */
  method VerifyUserHasWriteAccess(ctx: Context, methodName: string) returns (err: Option<Error>)
    ensures err == WriteAccess(ctx, methodName)
  {
    if !ctx.flags.hasUserAccounts {
      return None;
    }
    var actor := ctx.actor;
    if !actor.authenticated {
      for i := 0 to |actor.scope|
        invariant forall j :: 0 <= j < i ==> !ScopeGrantsWrite(actor.scope[j], methodName)
      {
        var scope := actor.scope[i];
        if scope == InternalCLIScope {
          assert ScopeGrantsWrite(actor.scope[i], methodName);
          return None;
        }
        if scope == WorkerBuildScope && HasPrefix(methodName, BuildsPrefix) {
          assert ScopeGrantsWrite(actor.scope[i], methodName);
          return None;
        }
      }
      return Some(Status(Unauthenticated, WriteDeniedMessage(methodName)));
    }
    if ctx.flags.restrictWriteAccess {
      return VerifyUserHasAdminAccess(ctx, methodName);
    }
    return None;
  }

  /** Without user accounts both checks allow everything. */
  lemma NoUserAccountsAllowsAll(ctx: Context, methodName: string)
    requires !ctx.flags.hasUserAccounts
    ensures WriteAccess(ctx, methodName) == None
    ensures VerifyUserHasAdminAccess(ctx, methodName) == None
  {
  }

  /** An unauthenticated actor may write exactly when it holds "internal:cli",
      or holds "worker:build" and the method is a Builds method; otherwise it
      gets an Unauthenticated error that names the method. */
  lemma UnauthenticatedWrite(ctx: Context, methodName: string)
    requires ctx.flags.hasUserAccounts && !ctx.actor.authenticated
    ensures WriteAccess(ctx, methodName) == None <==>
      InternalCLIScope in ctx.actor.scope
      || (WorkerBuildScope in ctx.actor.scope && HasPrefix(methodName, BuildsPrefix))
    ensures WriteAccess(ctx, methodName) != None ==>
      WriteAccess(ctx, methodName).value.Status? &&
      WriteAccess(ctx, methodName).value.code == Unauthenticated &&
      Contains(WriteAccess(ctx, methodName).value.message, methodName)
  {
    var scopes := ctx.actor.scope;
    if AnyScopeGrantsWrite(scopes, methodName) {
      var i :| 0 <= i < |scopes| && ScopeGrantsWrite(scopes[i], methodName);
      assert scopes[i] in scopes;
    } else {
      ContainsMiddle("write operation (", methodName, ") denied: no authenticated user in current context");
    }
  }

  /** An authenticated actor under restrict-write gets exactly the admin check's
      answer; without restrict-write it may always write. */
  lemma AuthenticatedWrite(ctx: Context, methodName: string)
    requires ctx.flags.hasUserAccounts && ctx.actor.authenticated
    ensures ctx.flags.restrictWriteAccess ==> WriteAccess(ctx, methodName) == VerifyUserHasAdminAccess(ctx, methodName)
    ensures !ctx.flags.restrictWriteAccess ==> WriteAccess(ctx, methodName) == None
  {
  }

  /** The order of the actor's scopes does not matter, although the scan
      returns at the first granting scope. */
  lemma {:induction false} ScopeOrderIrrelevant(ctx: Context, scopes: seq<string>, methodName: string)
    requires multiset(scopes) == multiset(ctx.actor.scope)
    ensures WriteAccess(ctx.(actor := ctx.actor.(scope := scopes)), methodName) == WriteAccess(ctx, methodName)
  {
    var orig := ctx.actor.scope;
    if AnyScopeGrantsWrite(scopes, methodName) {
      var i :| 0 <= i < |scopes| && ScopeGrantsWrite(scopes[i], methodName);
      assert scopes[i] in multiset(scopes);
      assert scopes[i] in orig;
      var j :| 0 <= j < |orig| && orig[j] == scopes[i];
      assert AnyScopeGrantsWrite(orig, methodName);
    }
    if AnyScopeGrantsWrite(orig, methodName) {
      var i :| 0 <= i < |orig| && ScopeGrantsWrite(orig[i], methodName);
      assert orig[i] in multiset(orig);
      assert orig[i] in scopes;
      var j :| 0 <= j < |scopes| && scopes[j] == orig[i];
      assert AnyScopeGrantsWrite(scopes, methodName);
    }
  }

  /** Holding more scopes never takes write access away. */
  lemma {:induction false} MoreScopesKeepWrite(ctx: Context, extra: seq<string>, methodName: string)
    requires WriteAccess(ctx, methodName) == None
    ensures WriteAccess(ctx.(actor := ctx.actor.(scope := ctx.actor.scope + extra)), methodName) == None
  {
    var scopes := ctx.actor.scope;
    if ctx.flags.hasUserAccounts && !ctx.actor.authenticated {
      var i :| 0 <= i < |scopes| && ScopeGrantsWrite(scopes[i], methodName);
      assert (scopes + extra)[i] == scopes[i];
    }
  }

  /** For an authenticated actor, passing the admin check implies passing the
      write check. (An unauthenticated actor can pass the admin lookup and
      still be refused write.) */
  lemma AdminImpliesWrite(ctx: Context, methodName: string)
    requires ctx.actor.authenticated
    requires VerifyUserHasAdminAccess(ctx, methodName) == None
    ensures WriteAccess(ctx, methodName) == None
  {
  }

  /** In local mode the local user record decides; a failed lookup is an
      Internal error naming the method and the UID. */
  lemma LocalAdminCheck(ctx: Context, methodName: string)
    requires ctx.flags.hasUserAccounts && ctx.flags.isLocal
    ensures var lookup := ctx.directory.usersGet(ToInt32(ctx.actor.uid));
      match lookup
      case Success(isAdmin) => (VerifyUserHasAdminAccess(ctx, methodName) == None <==> isAdmin)
      case Failure(e) =>
        var err := VerifyUserHasAdminAccess(ctx, methodName);
        err.Some? && err.value.Status? && err.value.code == Internal
        && Contains(err.value.message, methodName) && Contains(err.value.message, Decimal(ctx.actor.uid))
  {
    match ctx.directory.usersGet(ToInt32(ctx.actor.uid))
    case Success(_) =>
    case Failure(e) => LookupFailedMessageNames(methodName, ctx.actor.uid, e);
  }

  lemma LookupFailedMessageNames(methodName: string, uid: int, e: Error)
    ensures Contains(AdminLookupFailedMessage(methodName, uid, e), methodName)
    ensures Contains(AdminLookupFailedMessage(methodName, uid, e), Decimal(uid))
  {
    var head := "admin operation (";
    var mid := ") denied: could not complete permissions check for user ";
    var tail := ": " + Text(e);
    var msg := AdminLookupFailedMessage(methodName, uid, e);
    assert msg == head + methodName + (mid + Decimal(uid) + tail);
    ContainsMiddle(head, methodName, mid + Decimal(uid) + tail);
    assert msg == (head + methodName + mid) + Decimal(uid) + tail;
    ContainsMiddle(head + methodName + mid, Decimal(uid), tail);
  }

  /** On a satellite the root server's answer decides, and an error from the
      endpoint discovery or from the permissions call is returned as is. */
  lemma SatelliteAdminCheck(ctx: Context, methodName: string)
    requires ctx.flags.hasUserAccounts && !ctx.flags.isLocal
    ensures match ctx.directory.rootGRPCEndpoint
      case Failure(e) => VerifyUserHasAdminAccess(ctx, methodName) == Some(e)
      case Success(url) =>
        match ctx.directory.getUserPermissions(url, ToInt32(ctx.actor.uid), ctx.actor.clientID)
        case Failure(e) => VerifyUserHasAdminAccess(ctx, methodName) == Some(e)
        case Success(isAdmin) => (VerifyUserHasAdminAccess(ctx, methodName) == None <==> isAdmin)
  {
  }

  /** A user whose Admin flag is false gets PermissionDenied naming the method. */
  lemma NonAdminDenied(ctx: Context, methodName: string)
    requires ctx.flags.hasUserAccounts
    requires AdminFlag(ctx, methodName) == Success(false)
    ensures var err := VerifyUserHasAdminAccess(ctx, methodName);
      err.Some? && err.value.Status? && err.value.code == PermissionDenied
      && Contains(err.value.message, methodName)
  {
    ContainsMiddle("admin operation (", methodName, ") denied: user does not have admin status");
  }
}

=== FILE: authorizations.dfy ===
/** The file-backed store of OAuth2 authorization codes
    (server/internal/store/fs/authorizations.go).

    The database is one JSON file holding a list of grants. The file system is
    modelled by the `db` field of the `Authorizations` class; the clock by a
    `now` parameter (one instant per call); the random code generator by a
    `newCode` parameter; the outcome of writing the file by a `writeErr`
    parameter. */
module Authorizations {
  import opened Base

  /** sourcegraph.AuthorizationCodeRequest: what a client asked to be granted. */
  datatype AuthorizationCodeRequest =
    AuthorizationCodeRequest(clientID: string, redirectURI: string, scope: seq<string>, uid: int)

  /** sourcegraph.AuthorizationCode: a code as a client presents it for exchange. */
  datatype AuthorizationCode = AuthorizationCode(code: string, redirectURI: string)

  /** authCode: a grant and its metadata; `expiresAt` is an instant on the
      same clock as every `now`. */
  datatype AuthCode = AuthCode(code: string, req: AuthorizationCodeRequest, expiresAt: int, exchanged: bool)

  /** authCode.expired: the current time is strictly after the expiry instant. */
  predicate Expired(c: AuthCode, now: int)
  {
    now > c.expiresAt
  }

  /** A code is still valid at its expiry instant and expired strictly after
      it, and once expired it stays expired. */
  lemma ExpiryIsFinal(c: AuthCode, now: int, later: int)
    requires now <= later
    ensures !Expired(c, c.expiresAt) && Expired(c, c.expiresAt + 1)
    ensures Expired(c, now) ==> Expired(c, later)
  {
  }

  /** The codes removeExpiredAuthCodes keeps: the unexpired ones, in order. */
  function Unexpired(codes: seq<AuthCode>, now: int): seq<AuthCode>
  {
    if codes == [] then []
    else (if Expired(codes[0], now) then [] else [codes[0]]) + Unexpired(codes[1..], now)
  }

  /** removeExpiredAuthCodes: one pass over the list that appends every
      unexpired code to a fresh list. */
  method RemoveExpiredAuthCodes(codes: seq<AuthCode>, now: int) returns (unexpired: seq<AuthCode>)
    ensures unexpired == Unexpired(codes, now)
  {
    unexpired := [];
    for i := 0 to |codes|
      invariant unexpired + Unexpired(codes[i..], now) == Unexpired(codes, now)
    {
      assert codes[i..][1..] == codes[i + 1..];
      if !Expired(codes[i], now) {
        unexpired := unexpired + [codes[i]];
      }
    }
    assert codes[|codes|..] == [];
  }

  /** A code survives the purge exactly when it was in the list and has not
      expired. */
  lemma {:induction false} UnexpiredMembers(codes: seq<AuthCode>, now: int, c: AuthCode)
    ensures c in Unexpired(codes, now) <==> c in codes && !Expired(c, now)
  {
    if codes != [] {
      UnexpiredMembers(codes[1..], now, c);
      assert codes == [codes[0]] + codes[1..];
    }
  }

  /** The purge only deletes: the survivors keep their relative order. */
  lemma {:induction false} UnexpiredIsSubsequence(codes: seq<AuthCode>, now: int)
    ensures IsSubsequence(Unexpired(codes, now), codes)
  {
    if codes != [] {
      UnexpiredIsSubsequence(codes[1..], now);
      var rest := Unexpired(codes[1..], now);
      if Expired(codes[0], now) {
        assert Unexpired(codes, now) == rest;
        SubsequenceOfTail(rest, codes);
      } else {
        assert Unexpired(codes, now) == [codes[0]] + rest;
        assert ([codes[0]] + rest)[1..] == rest;
      }
    }
  }

  /** The purge distributes over concatenation. */
  lemma {:induction false} UnexpiredAppend(a: seq<AuthCode>, b: seq<AuthCode>, now: int)
    ensures Unexpired(a + b, now) == Unexpired(a, now) + Unexpired(b, now)
  {
    if a == [] {
      assert a + b == b;
    } else {
      assert (a + b)[1..] == a[1..] + b;
      UnexpiredAppend(a[1..], b, now);
    }
  }

  /** Purging twice at the same instant removes nothing more. */
  lemma {:induction false} UnexpiredIdempotent(codes: seq<AuthCode>, now: int)
    ensures Unexpired(Unexpired(codes, now), now) == Unexpired(codes, now)
  {
    if codes != [] {
      UnexpiredIdempotent(codes[1..], now);
      var rest := Unexpired(codes[1..], now);
      if Expired(codes[0], now) {
        assert Unexpired(codes, now) == rest;
      } else {
        var s := [codes[0]] + rest;
        assert Unexpired(codes, now) == s;
        assert s[0] == codes[0] && s[1..] == rest;
        assert Unexpired(s, now) == [codes[0]] + Unexpired(rest, now);
      }
    }
  }

  /** The JSON file as the file system holds it. */
  datatype DbFile =
    | Missing                   // the file does not exist
    | Unreadable(err: Error)    // opening or decoding it fails
    | Stored(codes: seq<AuthCode>)

  /** readAuthCodesDB: a missing file reads as the empty list, without error;
      any other failure to open or decode is returned. */
  function ReadAuthCodesDB(db: DbFile): (r: Result<seq<AuthCode>>)
    ensures db.Missing? ==> r == Success([])
    ensures r.Failure? <==> db.Unreadable?
    ensures db.Stored? ==> r == Success(db.codes)
  {
    match db
    case Missing => Success([])
    case Unreadable(e) => Failure(e)
    case Stored(codes) => Success(codes)
  }

  /** The condition MarkExchanged looks for: same code and redirect URI as
      presented, issued to the exchanging client, not expired. */
  predicate Matches(c: AuthCode, presented: AuthorizationCode, clientID: string, now: int)
  {
    c.code == presented.code && c.req.redirectURI == presented.redirectURI
    && c.req.clientID == clientID && !Expired(c, now)
  }

  /** The index of the first code that matches, if any. */
  function FirstMatch(codes: seq<AuthCode>, presented: AuthorizationCode, clientID: string, now: int): (r: Option<nat>)
    ensures r.Some? ==> r.value < |codes| && Matches(codes[r.value], presented, clientID, now)
    ensures r.Some? ==> forall j :: 0 <= j < r.value ==> !Matches(codes[j], presented, clientID, now)
    ensures r.None? ==> forall j :: 0 <= j < |codes| ==> !Matches(codes[j], presented, clientID, now)
  {
    if codes == [] then None
    else if Matches(codes[0], presented, clientID, now) then Some(0)
    else match FirstMatch(codes[1..], presented, clientID, now)
      case None => None
      case Some(k) => Some(k + 1)
  }

  /** What MarkExchanged does to a list it has read, before writing it back:
      on success, the request of the first matching code and the list to
      persist (that code marked exchanged, expired codes purged). */
  function Exchange(codes: seq<AuthCode>, presented: AuthorizationCode, clientID: string, now: int)
    : Result<(AuthorizationCodeRequest, seq<AuthCode>)>
  {
    match FirstMatch(codes, presented, clientID, now)
    case None => Failure(AuthCodeNotFound)
    case Some(i) =>
      if codes[i].exchanged then Failure(AuthCodeAlreadyExchanged)
      else Success((codes[i].req, Unexpired(codes[i := codes[i].(exchanged := true)], now)))
  }

  /** Every grant code in the list is different from every other. */
  predicate DistinctCodes(codes: seq<AuthCode>)
  {
    forall j, k :: 0 <= j < k < |codes| ==> codes[j].code != codes[k].code
  }

  /** The first code of `a + [m] + b` that matches is `m` when nothing in `a`
      matches and `m` does. */
  lemma FirstMatchAt(a: seq<AuthCode>, m: AuthCode, b: seq<AuthCode>,
                     presented: AuthorizationCode, clientID: string, now: int)
    requires forall c :: c in a ==> !Matches(c, presented, clientID, now)
    requires Matches(m, presented, clientID, now)
    ensures FirstMatch(a + [m] + b, presented, clientID, now) == Some(|a|)
  {
    var s := a + [m] + b;
    assert s[|a|] == m;
    forall j | 0 <= j < |a|
      ensures !Matches(s[j], presented, clientID, now)
    {
      assert s[j] == a[j];
      assert a[j] in a;
    }
  }

  /** A code cannot be exchanged twice at the same instant: after a successful
      exchange, exchanging it again against the persisted list fails with
      ErrAuthCodeAlreadyExchanged. */
  lemma SecondExchangeRefused(codes: seq<AuthCode>, presented: AuthorizationCode, clientID: string, now: int)
    requires Exchange(codes, presented, clientID, now).Success?
    ensures Exchange(Exchange(codes, presented, clientID, now).value.1, presented, clientID, now)
            == Failure(AuthCodeAlreadyExchanged)
  {
    var i := FirstMatch(codes, presented, clientID, now).value;
    var marked := codes[i].(exchanged := true);
    var updated := codes[i := marked];
    assert updated == codes[..i] + [marked] + codes[i + 1..];
    UnexpiredAppend(codes[..i] + [marked], codes[i + 1..], now);
    UnexpiredAppend(codes[..i], [marked], now);
    assert Unexpired([marked], now) == [marked] + Unexpired([], now);
    var before := Unexpired(codes[..i], now);
    assert Unexpired(updated, now) == before + [marked] + Unexpired(codes[i + 1..], now);
    forall c | c in before
      ensures !Matches(c, presented, clientID, now)
    {
      UnexpiredMembers(codes[..i], now, c);
      var j :| 0 <= j < i && codes[..i][j] == c;
      assert codes[j] == c;
    }
    FirstMatchAt(before, marked, Unexpired(codes[i + 1..], now), presented, clientID, now);
  }

  /** With distinct grant codes, a code is exchanged at most once, whenever the
      second attempt comes: the second exchange against the persisted list
      fails, either because the code has expired (ErrAuthCodeNotFound) or
      because it is marked (ErrAuthCodeAlreadyExchanged). */
  lemma ExchangeAtMostOnce(codes: seq<AuthCode>, presented: AuthorizationCode, clientID: string, now: int, later: int)
    requires DistinctCodes(codes)
    requires Exchange(codes, presented, clientID, now).Success?
    ensures Exchange(Exchange(codes, presented, clientID, now).value.1, presented, clientID, later).Failure?
  {
    var i := FirstMatch(codes, presented, clientID, now).value;
    var updated := codes[i := codes[i].(exchanged := true)];
    var kept := Unexpired(updated, now);
    match FirstMatch(kept, presented, clientID, later)
    case None =>
    case Some(k) =>
      UnexpiredMembers(updated, now, kept[k]);
      var m :| 0 <= m < |updated| && updated[m] == kept[k];
      assert codes[m].code == codes[i].code;
      assert m == i;
  }

  /** A freshly created code, presented with its redirect URI by the client it
      was issued to at any instant from its creation up to its expiry, is
      exchanged for the request it was created from, provided no stored code
      has the same string. */
  lemma CreatedCodeExchangeable(codes: seq<AuthCode>, req: AuthorizationCodeRequest, expires: int,
                                 now: int, later: int, newCode: string)
    requires now <= later <= now + expires
    requires forall c :: c in codes ==> c.code != newCode
    ensures var stored := Unexpired(codes + [AuthCode(newCode, req, now + expires, false)], now);
            var r := Exchange(stored, AuthorizationCode(newCode, req.redirectURI), req.clientID, later);
            r.Success? && r.value.0 == req
  {
    var code := AuthCode(newCode, req, now + expires, false);
    var presented := AuthorizationCode(newCode, req.redirectURI);
    UnexpiredAppend(codes, [code], now);
    assert !Expired(code, now) && !Expired(code, later);
    assert [code][1..] == [];
    assert Unexpired([code], now) == [code];
    var before := Unexpired(codes, now);
    assert Unexpired(codes + [code], now) == before + [code];
    forall c | c in before
      ensures !Matches(c, presented, req.clientID, later)
    {
      UnexpiredMembers(codes, now, c);
    }
    assert before + [code] + [] == before + [code];
    FirstMatchAt(before, code, [], presented, req.clientID, later);
    assert (before + [code])[|before|] == code;
  }

  /** The FS-backed Authorizations store; `db` is the JSON file. */
  class Authorizations {
    var db: DbFile

    constructor(db: DbFile)
      ensures this.db == db
    {
      this.db := db;
    }

    /** writeAuthCodesDB: on success the file holds exactly `codes`; a failed
        write leaves the file as it was. */
    method WriteAuthCodesDB(codes: seq<AuthCode>, writeErr: Option<Error>) returns (err: Option<Error>)
      modifies this
      ensures err == writeErr
      ensures writeErr.None? ==> db == Stored(codes)
      ensures writeErr.Some? ==> db == old(db)
    {
      if writeErr.Some? {
        return writeErr;
      }
      db := Stored(codes);
      return None;
    }

    /** CreateAuthCode: after the caller is checked to be the requested user
        or an admin (`selfOrAdmin` is that check, given the operation name and
        the user id), appends a new code expiring `expires` after `now`, writes
        the list back without its expired codes, and returns the code. */
    method CreateAuthCode(req: AuthorizationCodeRequest, expires: int, now: int, newCode: string,
                          selfOrAdmin: (string, int) -> Option<Error>, writeErr: Option<Error>)
      returns (r: Result<string>)
      requires |newCode| == 40
      modifies this
      ensures var check := selfOrAdmin("Authorizations.CreateAuthCode", req.uid);
              check.Some? ==> r == Failure(check.value) && db == old(db)
      ensures var check := selfOrAdmin("Authorizations.CreateAuthCode", req.uid);
              check.None? && old(db).Unreadable? ==> r == Failure(old(db).err) && db == old(db)
      ensures var check := selfOrAdmin("Authorizations.CreateAuthCode", req.uid);
              check.None? && !old(db).Unreadable? && writeErr.Some? ==> r == Failure(writeErr.value) && db == old(db)
      ensures var check := selfOrAdmin("Authorizations.CreateAuthCode", req.uid);
              check.None? && !old(db).Unreadable? && writeErr.None? ==>
                r == Success(newCode) && |r.value| == 40
                && db == Stored(Unexpired(ReadAuthCodesDB(old(db)).value + [AuthCode(newCode, req, now + expires, false)], now))
    {
      var check := selfOrAdmin("Authorizations.CreateAuthCode", req.uid);
      if check.Some? {
        return Failure(check.value);
      }
      var read := ReadAuthCodesDB(db);
      if read.Failure? {
        return Failure(read.error);
      }
      var code := AuthCode(newCode, req, now + expires, false);
      var codes := read.value + [code];
      var kept := RemoveExpiredAuthCodes(codes, now);
      var err := WriteAuthCodesDB(kept, writeErr);
      if err.Some? {
        return Failure(err.value);
      }
      return Success(code.code);
    }

    /** MarkExchanged: finds the first stored code matching the presented one
        for `clientID` at `now`; refuses a missing or already exchanged code
        without writing anything; otherwise marks it, writes the list back
        without its expired codes and returns the code's request. */
    method MarkExchanged(presented: AuthorizationCode, clientID: string, now: int, writeErr: Option<Error>)
      returns (r: Result<AuthorizationCodeRequest>)
      modifies this
      ensures old(db).Unreadable? ==> r == Failure(old(db).err) && db == old(db)
      ensures !old(db).Unreadable? ==>
        var x := Exchange(ReadAuthCodesDB(old(db)).value, presented, clientID, now);
        (x.Failure? ==> r == Failure(x.error) && db == old(db))
        && (x.Success? && writeErr.Some? ==> r == Failure(writeErr.value) && db == old(db))
        && (x.Success? && writeErr.None? ==> r == Success(x.value.0) && db == Stored(x.value.1))
    {
      var read := ReadAuthCodesDB(db);
      if read.Failure? {
        return Failure(read.error);
      }
      var codes := read.value;
      ghost var x := Exchange(codes, presented, clientID, now);
      var found: Option<nat> := None;
      var i := 0;
      while i < |codes|
        invariant 0 <= i <= |codes|
        invariant forall j :: 0 <= j < i ==> !Matches(codes[j], presented, clientID, now)
        invariant found.Some? ==> found == FirstMatch(codes, presented, clientID, now)
        invariant found.None? ==> FirstMatch(codes, presented, clientID, now).None? || i <= FirstMatch(codes, presented, clientID, now).value
      {
        if Matches(codes[i], presented, clientID, now) {
          found := Some(i);
          break;
        }
        i := i + 1;
      }
      if found.None? {
        return Failure(AuthCodeNotFound);
      }
      var dbCode := codes[found.value];
      if dbCode.exchanged {
        return Failure(AuthCodeAlreadyExchanged);
      }
      codes := codes[found.value := dbCode.(exchanged := true)];
      var kept := RemoveExpiredAuthCodes(codes, now);
      var err := WriteAuthCodesDB(kept, writeErr);
      if err.Some? {
        return Failure(err.value);
      }
      return Success(dbCode.req);
    }
  }
}

=== FILE: base.dfy ===
/** Values shared by every part of the model: optional values and results,
    Go-style errors with their gRPC status codes, bytes, and the few helpers
    of Go's `strings` and `fmt` packages that the core relies on. */
module Base {

  datatype Option<+T> = None | Some(value: T)

  /** A Go `(value, error)` pair: exactly one of the two is meaningful. */
  datatype Result<+T> = Success(value: T) | Failure(error: Error)

  /** The gRPC status codes the core produces. */
  datatype Code = Unknown | NotFound | AlreadyExists | PermissionDenied | Unauthenticated | Internal

  /** A Go `error` value. */
  datatype Error =
    | Status(code: Code, message: string)   // grpc.Errorf(code, ...)
    | Plain(message: string)                 // errors.New, fmt.Errorf and errors of collaborators
    | RepoNotExist                           // vcs.ErrRepoNotExist
    | AuthCodeNotFound                       // store.ErrAuthCodeNotFound
    | AuthCodeAlreadyExchanged               // store.ErrAuthCodeAlreadyExchanged

  /** The text `%v` prints for an error. The sentinels' texts live in packages
      that are not part of this model; they are represented by their names. */
  function Text(e: Error): string
  {
    match e
    case Status(_, m) => m
    case Plain(m) => m
    case RepoNotExist => "ErrRepoNotExist"
    case AuthCodeNotFound => "ErrAuthCodeNotFound"
    case AuthCodeAlreadyExchanged => "ErrAuthCodeAlreadyExchanged"
  }

  newtype byte = x: int | 0 <= x < 256

  /** strings.HasPrefix */
  predicate HasPrefix(s: string, prefix: string)
  {
    |prefix| <= |s| && s[..|prefix|] == prefix
  }

  /** strings.HasSuffix */
  predicate HasSuffix(s: string, suffix: string)
  {
    |suffix| <= |s| && s[|s| - |suffix|..] == suffix
  }

  /** strings.Contains */
  predicate Contains(s: string, sub: string)
  {
    exists i :: 0 <= i <= |s| && HasPrefix(s[i..], sub)
  }

  /** A string built as `a + b + c` contains `b`; used to show that an error
      message names the value that was formatted into it. */
  lemma ContainsMiddle(a: string, b: string, c: string)
    ensures Contains(a + b + c, b)
  {
    var s := a + b + c;
    assert s[|a|..][..|b|] == b;
    assert HasPrefix(s[|a|..], b);
  }

  /** A string built as `a + b` ends with `b`. */
  lemma SuffixOfConcat(a: string, b: string)
    ensures HasSuffix(a + b, b)
  {
    assert (a + b)[|a + b| - |b|..] == b;
  }

  /** ASCII lower-casing of one character (unicode.ToLower on ASCII). */
  function LowerChar(c: char): char
  {
    if 'A' <= c <= 'Z' then (c as int + 32) as char else c
  }

  /** strings.ToLower, restricted to ASCII letters. */
  function ToLower(s: string): string
  {
    seq(|s|, i requires 0 <= i < |s| => LowerChar(s[i]))
  }

  /** The decimal digits of a natural number, as `%d` prints them. */
  function Digits(n: nat): (r: string)
    ensures |r| > 0
    ensures forall i :: 0 <= i < |r| ==> '0' <= r[i] <= '9'
  {
    var d := ['0' + (n % 10) as char];
    if n < 10 then d else Digits(n / 10) + d
  }

  /** An integer as `%v` prints it. */
  function Decimal(n: int): string
  {
    if n < 0 then "-" + Digits(-n) else Digits(n)
  }

  /** Go's conversion `int32(x)` of an `int`: two's-complement wrap-around. */
  function ToInt32(x: int): (r: int)
    ensures -0x8000_0000 <= r < 0x8000_0000
    ensures -0x8000_0000 <= x < 0x8000_0000 ==> r == x
  {
    (x + 0x8000_0000) % 0x1_0000_0000 - 0x8000_0000
  }

  /** `a` can be obtained from `b` by deleting elements. */
  predicate IsSubsequence<T(==)>(a: seq<T>, b: seq<T>)
    decreases |b|
  {
    if a == [] then true
    else if b == [] then false
    else if a[0] == b[0] then IsSubsequence(a[1..], b[1..])
    else IsSubsequence(a, b[1..])
  }

  /** A subsequence of the tail of `b` is a subsequence of `b`. */
  lemma {:induction false} SubsequenceOfTail<T>(a: seq<T>, b: seq<T>)
    requires b != [] && IsSubsequence(a, b[1..])
    ensures IsSubsequence(a, b)
    decreases |b|, 1
  {
    if a != [] && a[0] == b[0] {
      SubsequenceDropHead(a, b[1..]);
    }
  }

  /** Dropping the first element of a subsequence keeps it a subsequence. */
  lemma {:induction false} SubsequenceDropHead<T>(a: seq<T>, c: seq<T>)
    requires a != [] && IsSubsequence(a, c)
    ensures IsSubsequence(a[1..], c)
    decreases |c|, 2
  {
    if a[0] == c[0] {
      SubsequenceOfTail(a[1..], c);
    } else {
      SubsequenceDropHead(a, c[1..]);
      SubsequenceOfTail(a[1..], c);
    }
  }
}

=== FILE: git_transport.dfy ===
/** The GitTransport service of server/local/git_transport.go: the three git
    smart-protocol verbs over a per-repository transport handle, the write gate
    in front of receive-pack, and the collapsing of duplicate push events before
    the post-push hooks run.

    The repository store and the transport handle are outside this model; they
    are inputs given as the results their calls produce. */
module GitTransport {
  import opened Base
  import AccessControl

  /** The kind of a githttp event; NoKind is the zero value. */
  datatype EventKind = NoKind | Tag | Push | Fetch | PushForce

  /** A githttp.Event: one ref update reported by receive-pack. */
  datatype Event = Event(kind: EventKind, dir: string, branch: string, tag: string, last: string, commit: string)

  /** The zero value of githttp.Event, the initial `previousEvent`. */
  const ZeroEvent := Event(NoKind, "", "", "", "", "")

  /** What the loop of collapseDuplicateEvents appends for the rest of the list
      when `previous` is the event seen last. */
  function CollapseAfter(previous: Event, events: seq<Event>): seq<Event>
    decreases |events|
  {
    if events == [] then []
    else (if events[0] == previous then [] else [events[0]]) + CollapseAfter(events[0], events[1..])
  }

  /** The result of collapseDuplicateEvents. */
  function Collapsed(events: seq<Event>): seq<Event>
  {
    CollapseAfter(ZeroEvent, events)
  }

  /** collapseDuplicateEvents: keeps an event only when it differs from the one
      before it (the first is compared with the zero event). */
  method CollapseDuplicateEvents(eventsDup: seq<Event>) returns (events: seq<Event>)
    ensures events == Collapsed(eventsDup)
  {
    events := [];
    var previousEvent := ZeroEvent;
    for i := 0 to |eventsDup|
      invariant events + CollapseAfter(previousEvent, eventsDup[i..]) == Collapsed(eventsDup)
    {
      var e := eventsDup[i];
      assert eventsDup[i..][1..] == eventsDup[i + 1..];
      if e != previousEvent {
        events := events + [e];
      }
      previousEvent := e;
    }
    assert eventsDup[|eventsDup|..] == [];
  }

  predicate NoAdjacentDuplicates(s: seq<Event>)
  {
    forall k :: 0 < k < |s| ==> s[k - 1] != s[k]
  }

  lemma {:induction false} CollapseAfterShape(previous: Event, s: seq<Event>)
    ensures var r := CollapseAfter(previous, s);
      NoAdjacentDuplicates(r) && (r != [] ==> r[0] != previous)
    decreases |s|
  {
    if s != [] {
      CollapseAfterShape(s[0], s[1..]);
      var rest := CollapseAfter(s[0], s[1..]);
      if s[0] != previous {
        var r := [s[0]] + rest;
        forall k | 0 < k < |r| ensures r[k - 1] != r[k] {
          if k > 1 { assert r[k - 1] == rest[k - 2] && r[k] == rest[k - 1]; }
        }
      }
    }
  }

  /** The collapsed list never holds two equal neighbours, and it does not
      start with the zero event. */
  lemma CollapsedHasNoAdjacentDuplicates(s: seq<Event>)
    ensures NoAdjacentDuplicates(Collapsed(s))
    ensures Collapsed(s) != [] ==> Collapsed(s)[0] != ZeroEvent
  {
    CollapseAfterShape(ZeroEvent, s);
  }

  lemma {:induction false} CollapseAfterIsSubsequence(previous: Event, s: seq<Event>)
    ensures IsSubsequence(CollapseAfter(previous, s), s)
    decreases |s|
  {
    if s != [] {
      CollapseAfterIsSubsequence(s[0], s[1..]);
      var rest := CollapseAfter(s[0], s[1..]);
      if s[0] == previous {
        assert CollapseAfter(previous, s) == [] + rest == rest;
        SubsequenceOfTail(rest, s);
      } else {
        assert ([s[0]] + rest)[1..] == rest;
      }
    }
  }

  /** Collapsing only deletes events. */
  lemma CollapsedIsSubsequence(s: seq<Event>)
    ensures IsSubsequence(Collapsed(s), s)
  {
    CollapseAfterIsSubsequence(ZeroEvent, s);
  }

  lemma {:induction false} CollapseAfterKeeps(previous: Event, s: seq<Event>, e: Event)
    requires e != previous
    ensures e in CollapseAfter(previous, s) <==> e in s
    decreases |s|
  {
    if s != [] {
      var rest := CollapseAfter(s[0], s[1..]);
      if e == s[0] {
        assert CollapseAfter(previous, s) == [s[0]] + rest;
      } else {
        CollapseAfterKeeps(s[0], s[1..], e);
        assert e in s <==> e in s[1..];
      }
    }
  }

  /** Every event other than the zero event survives somewhere: only
      repetitions are removed, never a distinct event. */
  lemma CollapsedKeepsEveryEvent(s: seq<Event>, e: Event)
    requires e != ZeroEvent
    ensures e in Collapsed(s) <==> e in s
  {
    CollapseAfterKeeps(ZeroEvent, s, e);
  }

  lemma {:induction false} CollapseAfterOfCollapsed(previous: Event, t: seq<Event>)
    requires NoAdjacentDuplicates(t) && (t != [] ==> t[0] != previous)
    ensures CollapseAfter(previous, t) == t
    decreases |t|
  {
    if t != [] {
      var tail := t[1..];
      assert NoAdjacentDuplicates(tail) by {
        forall k | 0 < k < |tail| ensures tail[k - 1] != tail[k] {
          assert tail[k - 1] == t[k] && tail[k] == t[k + 1];
        }
      }
      if tail != [] { assert tail[0] == t[1]; }
      CollapseAfterOfCollapsed(t[0], tail);
    }
  }

  /** Collapsing twice is collapsing once. */
  lemma CollapseIdempotent(s: seq<Event>)
    ensures Collapsed(Collapsed(s)) == Collapsed(s)
  {
    CollapsedHasNoAdjacentDuplicates(s);
    CollapseAfterOfCollapsed(ZeroEvent, Collapsed(s));
  }

  /** Runs are collapsed, repetitions that are not adjacent are kept:
      [A, A, B, B, A] becomes [A, B, A]. */
  lemma RunsCollapse(a: Event, b: Event)
    requires a != b && a != ZeroEvent
    ensures Collapsed([a, a, b, b, a]) == [a, b, a]
  {
    assert [a][1..] == [];
    assert CollapseAfter(b, [a]) == [a];
    assert [b, a][1..] == [a];
    assert CollapseAfter(b, [b, a]) == [a];
    assert [b, b, a][1..] == [b, a];
    assert CollapseAfter(a, [b, b, a]) == [b, a];
    assert [a, b, b, a][1..] == [b, b, a];
    assert CollapseAfter(a, [a, b, b, a]) == [b, a];
    assert [a, a, b, b, a][1..] == [a, b, b, a];
  }

  /** The empty list stays empty, and a leading zero event is dropped because
      it equals the initial `previousEvent`. */
  lemma LeadingZeroEventDropped(s: seq<Event>)
    ensures Collapsed([]) == []
    ensures Collapsed([ZeroEvent] + s) == Collapsed(s)
  {
    assert ([ZeroEvent] + s)[1..] == s;
  }

  /** A gitpb.Packet. */
  datatype Packet = Packet(data: seq<byte>)

  /** gitproto.TransportOpt. */
  datatype TransportOpt = TransportOpt(contentEncoding: string)

  /** What upload-pack and receive-pack produce: the response bytes and the
      events of the run. */
  datatype PackResult = PackResult(data: seq<byte>, events: seq<Event>)

  /** The git transport of one repository, given by the results of its three
      calls. */
  datatype Transport = Transport(
    infoRefs: string -> Result<seq<byte>>,
    uploadPack: (seq<byte>, TransportOpt) -> Result<PackResult>,
    receivePack: (seq<byte>, TransportOpt) -> Result<PackResult>)

  /** store.RepoVCS: opens the transport of a repository, by URI. */
  datatype RepoVCS = RepoVCS(openGitTransport: string -> Result<Transport>)

  datatype InfoRefsOp = InfoRefsOp(repo: string, service: string)
  datatype UploadPackOp = UploadPackOp(repo: string, data: seq<byte>, contentEncoding: string)
  datatype ReceivePackOp = ReceivePackOp(repo: string, data: seq<byte>, contentEncoding: string)

  /** The actions ReceivePack takes, in the order it takes them. */
  datatype Effect =
    | OpenGitTransport(repo: string)
    | RunReceivePack(data: seq<byte>, opt: TransportOpt)
    | InvokeHook(hook: string, op: ReceivePackOp, events: seq<Event>)

  /** The operation name the write check is asked about. */
  const ReceivePackMethod := "GitTransport.ReceivePack"

  /** InfoRefs: no access check; the transport's advertisement or the first
      error. */
  function InfoRefs(store: RepoVCS, op: InfoRefsOp): (r: Result<Packet>)
    ensures r.Success? <==>
      store.openGitTransport(op.repo).Success? &&
      store.openGitTransport(op.repo).value.infoRefs(op.service).Success?
    ensures r.Success? ==> r.value.data == store.openGitTransport(op.repo).value.infoRefs(op.service).value
    ensures store.openGitTransport(op.repo).Failure? ==> r == Failure(store.openGitTransport(op.repo).error)
    ensures store.openGitTransport(op.repo).Success? &&
            store.openGitTransport(op.repo).value.infoRefs(op.service).Failure? ==>
      r == Failure(store.openGitTransport(op.repo).value.infoRefs(op.service).error)
  {
    match store.openGitTransport(op.repo)
    case Failure(e) => Failure(e)
    case Success(t) =>
      match t.infoRefs(op.service)
      case Failure(e) => Failure(e)
      case Success(data) => Success(Packet(data))
  }

  /** UploadPack: no access check; the pack data (its events are discarded) or
      the first error. */
  function UploadPack(store: RepoVCS, op: UploadPackOp): (r: Result<Packet>)
    ensures var opt := TransportOpt(op.contentEncoding);
      r.Success? <==>
        store.openGitTransport(op.repo).Success? &&
        store.openGitTransport(op.repo).value.uploadPack(op.data, opt).Success?
    ensures r.Success? ==>
      r.value.data == store.openGitTransport(op.repo).value.uploadPack(op.data, TransportOpt(op.contentEncoding)).value.data
    ensures store.openGitTransport(op.repo).Failure? ==> r == Failure(store.openGitTransport(op.repo).error)
    ensures var opt := TransportOpt(op.contentEncoding);
      store.openGitTransport(op.repo).Success? &&
      store.openGitTransport(op.repo).value.uploadPack(op.data, opt).Failure? ==>
        r == Failure(store.openGitTransport(op.repo).value.uploadPack(op.data, opt).error)
  {
    match store.openGitTransport(op.repo)
    case Failure(e) => Failure(e)
    case Success(t) =>
      match t.uploadPack(op.data, TransportOpt(op.contentEncoding))
      case Failure(e) => Failure(e)
      case Success(res) => Success(Packet(res.data))
  }

  /** ReceivePack: the write gate, then the push, then the collapse, then every
      post-push hook in registration order; the response is the push's data
      whatever the hooks do. */
  method ReceivePack(ctx: AccessControl.Context, store: RepoVCS, postPushHooks: seq<string>, op: ReceivePackOp)
    returns (res: Result<Packet>, effects: seq<Effect>)
    ensures var gate := AccessControl.WriteAccess(ctx, ReceivePackMethod);
      gate.Some? ==> res == Failure(gate.value) && effects == []
    ensures var gate := AccessControl.WriteAccess(ctx, ReceivePackMethod);
      var handle := store.openGitTransport(op.repo);
      gate.None? && handle.Failure? ==>
        res == Failure(handle.error) && effects == [OpenGitTransport(op.repo)]
    ensures var gate := AccessControl.WriteAccess(ctx, ReceivePackMethod);
      var handle := store.openGitTransport(op.repo);
      var opt := TransportOpt(op.contentEncoding);
      gate.None? && handle.Success? && handle.value.receivePack(op.data, opt).Failure? ==>
        res == Failure(handle.value.receivePack(op.data, opt).error) &&
        effects == [OpenGitTransport(op.repo), RunReceivePack(op.data, opt)]
    ensures var gate := AccessControl.WriteAccess(ctx, ReceivePackMethod);
      var handle := store.openGitTransport(op.repo);
      var opt := TransportOpt(op.contentEncoding);
      gate.None? && handle.Success? && handle.value.receivePack(op.data, opt).Success? ==>
        var pushed := handle.value.receivePack(op.data, opt).value;
        res == Success(Packet(pushed.data)) &&
        |effects| == 2 + |postPushHooks| &&
        effects[..2] == [OpenGitTransport(op.repo), RunReceivePack(op.data, opt)] &&
        forall i :: 0 <= i < |postPushHooks| ==>
          effects[2 + i] == InvokeHook(postPushHooks[i], op, Collapsed(pushed.events))
  {
    var err := AccessControl.VerifyUserHasWriteAccess(ctx, ReceivePackMethod);
    if err.Some? {
      return Failure(err.value), [];
    }
    effects := [OpenGitTransport(op.repo)];
    var handle := store.openGitTransport(op.repo);
    if handle.Failure? {
      return Failure(handle.error), effects;
    }
    var opt := TransportOpt(op.contentEncoding);
    effects := effects + [RunReceivePack(op.data, opt)];
    var pushed := handle.value.receivePack(op.data, opt);
    if pushed.Failure? {
      return Failure(pushed.error), effects;
    }
    var events := CollapseDuplicateEvents(pushed.value.events);
    for i := 0 to |postPushHooks|
      invariant |effects| == 2 + i
      invariant effects[..2] == [OpenGitTransport(op.repo), RunReceivePack(op.data, opt)]
      invariant forall j :: 0 <= j < i ==> effects[2 + j] == InvokeHook(postPushHooks[j], op, events)
    {
      effects := effects + [InvokeHook(postPushHooks[i], op, events)];
    }
    res := Success(Packet(pushed.value.data));
  }
}

=== FILE: gitserver.dfy ===
/** Repository lifecycle on the gitserver cluster (pkg/gitserver/management.go):
    the client side that probes for a repository and sends Git.Create to the
    shard chosen by hashing the name, and the shard side that runs git to
    create a repository and removes one.

    The git executable, md5, the RPC channels and the shard's file system are
    outside this model: the client side sees them as a Cluster value of
    results, and a shard keeps the set of paths that exist and the set of
    those on which `git remote` succeeds. */
module Gitserver {
  import opened Base

  /** vcs.RemoteOpts is not part of this model; its value is passed through
      unchanged. */
  datatype RemoteOpts = RemoteOpts(credentials: string)

  datatype CreateArgs = CreateArgs(repo: string, mirrorRemote: string, opt: Option<RemoteOpts>)

  /** An md5 sum. */
  type Digest = s: seq<byte> | |s| == 16 witness [0, 0, 0, 0, 0, 0, 0, 0, 0, 0, 0, 0, 0, 0, 0, 0]

  function Pow256(n: nat): (r: nat)
    ensures r > 0
  {
    if n == 0 then 1 else 256 * Pow256(n - 1)
  }

  lemma Pow256Of8()
    ensures Pow256(8) == 0x1_0000_0000_0000_0000
  {
    assert Pow256(2) == 0x1_0000;
    assert Pow256(4) == 0x1_0000_0000 by { assert Pow256(3) == 0x100_0000; }
    assert Pow256(6) == 0x1_0000_0000_0000 by { assert Pow256(5) == 0x100_0000_0000; }
    assert Pow256(7) == 0x100_0000_0000_0000;
  }

  /** The number a byte string denotes, most significant byte first. */
  function BigEndian(b: seq<byte>): nat
  {
    if b == [] then 0 else BigEndian(b[..|b| - 1]) * 256 + b[|b| - 1] as nat
  }

  /** Encodes the low `n` bytes of `x`, most significant first. */
  function PutBigEndian(x: nat, n: nat): (r: seq<byte>)
    ensures |r| == n
  {
    if n == 0 then [] else PutBigEndian(x / 256, n - 1) + [(x % 256) as byte]
  }

  lemma {:induction false} BigEndianBound(b: seq<byte>)
    ensures BigEndian(b) < Pow256(|b|)
  {
    if b != [] {
      var init := b[..|b| - 1];
      BigEndianBound(init);
      var q := BigEndian(init);
      var p := Pow256(|init|);
      assert q + 1 <= p;
      assert (q + 1) * 256 <= p * 256;
      assert BigEndian(b) < (q + 1) * 256;
    }
  }

  /** Decoding an encoding gives the number back. */
  lemma {:induction false} BigEndianOfPut(x: nat, n: nat)
    requires x < Pow256(n)
    ensures BigEndian(PutBigEndian(x, n)) == x
  {
    if n > 0 {
      var p := Pow256(n - 1);
      assert x / 256 < p;
      BigEndianOfPut(x / 256, n - 1);
      var r := PutBigEndian(x, n);
      assert r[..|r| - 1] == PutBigEndian(x / 256, n - 1);
    }
  }

  /** Encoding a decoded byte string gives the bytes back. */
  lemma {:induction false} PutOfBigEndian(b: seq<byte>)
    ensures PutBigEndian(BigEndian(b), |b|) == b
  {
    if b != [] {
      var init := b[..|b| - 1];
      var last := b[|b| - 1] as nat;
      var v := BigEndian(b);
      assert v == BigEndian(init) * 256 + last;
      assert v / 256 == BigEndian(init) && v % 256 == last;
      PutOfBigEndian(init);
      assert b == init + [b[|b| - 1]];
    }
  }

  /** binary.BigEndian.Uint64 */
  function Uint64(b: seq<byte>): (r: nat)
    requires |b| >= 8
    ensures r < 0x1_0000_0000_0000_0000
  {
    BigEndianBound(b[..8]);
    Pow256Of8();
    BigEndian(b[..8])
  }

  /** The big-endian encoding of a 64-bit value, the inverse of Uint64.
      `create` never encodes; the round trip shows that Uint64 reads every
      eight-byte prefix as a distinct value. */
  function PutUint64(x: nat): (r: seq<byte>)
    requires x < 0x1_0000_0000_0000_0000
    ensures |r| == 8
  {
    PutBigEndian(x, 8)
  }

  /** Uint64 and PutUint64 are inverse to each other. */
  lemma Uint64RoundTrip(x: nat, b: seq<byte>)
    requires x < 0x1_0000_0000_0000_0000 && |b| == 8
    ensures Uint64(PutUint64(x)) == x
    ensures PutUint64(Uint64(b)) == b
  {
    Pow256Of8();
    BigEndianOfPut(x, 8);
    assert PutUint64(x)[..8] == PutUint64(x);
    assert b[..8] == b;
    PutOfBigEndian(b);
  }

  /** The index of the server that gets a new repository: the first eight
      bytes of the name's md5 sum, big-endian, modulo the number of servers. */
  function ServerIndex(sum: Digest, numServers: nat): (i: nat)
    requires numServers > 0
    ensures i < numServers
  {
    Uint64(sum[..]) % numServers
  }

  /** What `create` observes of the cluster.
      - numServers: len(servers);
      - md5: md5.Sum;
      - probe: the error of Command("git", "remote").Run() for a repository
        (None when the command succeeds);
      - call: the error Git.Create returns when sent to server i. */
  datatype Cluster = Cluster(
    numServers: nat,
    md5: string -> Digest,
    probe: string -> Option<Error>,
    call: (nat, CreateArgs) -> Option<Error>)

  /** The requests `create` makes of the cluster, in order. */
  datatype Step =
    | Probe(repo: string)
    | Dispatch(server: nat, serviceMethod: string, args: CreateArgs)

  datatype Outcome = Outcome(err: Option<Error>, steps: seq<Step>)

  const AlreadyExistsError := Plain("repository already exists")
  const EmptyRemoteError := Plain("empty remote")

  /** Go's `%` panics when there are no servers; the cluster is configured
      with at least one before any repository is created. */
  predicate CanDispatch(c: Cluster, repo: string)
  {
    c.probe(repo) == Some(RepoNotExist) ==> c.numServers > 0
  }

  /** create: probe, then send Git.Create to the server the name hashes to,
      and wait for its answer. */
  function Create(c: Cluster, repo: string, mirrorRemote: string, opt: Option<RemoteOpts>): (o: Outcome)
    requires CanDispatch(c, repo)
    ensures |o.steps| > 0 && o.steps[0] == Probe(repo)
  {
    match c.probe(repo)
    case None => Outcome(Some(AlreadyExistsError), [Probe(repo)])
    case Some(err) =>
      if err != RepoNotExist then Outcome(Some(err), [Probe(repo)])
      else
        var serverIndex := ServerIndex(c.md5(repo), c.numServers);
        var args := CreateArgs(repo, mirrorRemote, opt);
        Outcome(c.call(serverIndex, args), [Probe(repo), Dispatch(serverIndex, "Git.Create", args)])
  }

  /** Init: create an empty repository. */
  function Init(c: Cluster, repo: string): (o: Outcome)
    requires CanDispatch(c, repo)
    ensures |o.steps| > 0 && o.steps[0] == Probe(repo)
    ensures forall k :: 0 <= k < |o.steps| && o.steps[k].Dispatch? ==> o.steps[k].args == CreateArgs(repo, "", None)
  {
    Create(c, repo, "", None)
  }

  /** Clone: create a mirror of a remote, which must not be empty. */
  function Clone(c: Cluster, repo: string, remote: string, opt: Option<RemoteOpts>): (o: Outcome)
    requires remote != "" ==> CanDispatch(c, repo)
    ensures remote == "" ==> o == Outcome(Some(EmptyRemoteError), [])
    ensures remote != "" ==> o == Create(c, repo, remote, opt)
  {
    if remote == "" then Outcome(Some(EmptyRemoteError), []) else Create(c, repo, remote, opt)
  }

  predicate Dispatched(o: Outcome)
  {
    exists k :: 0 <= k < |o.steps| && o.steps[k].Dispatch?
  }

  /** An existing repository is refused and nothing is sent to any server. */
  lemma CreateRefusesExisting(c: Cluster, repo: string, mirrorRemote: string, opt: Option<RemoteOpts>)
    requires c.probe(repo) == None
    ensures Create(c, repo, mirrorRemote, opt).err == Some(AlreadyExistsError)
    ensures !Dispatched(Create(c, repo, mirrorRemote, opt))
  {
  }

  /** A probe error other than ErrRepoNotExist is returned unchanged and
      nothing is sent to any server. */
  lemma CreatePropagatesProbeError(c: Cluster, repo: string, mirrorRemote: string, opt: Option<RemoteOpts>)
    requires c.probe(repo).Some? && c.probe(repo).value != RepoNotExist
    ensures Create(c, repo, mirrorRemote, opt).err == c.probe(repo)
    ensures !Dispatched(Create(c, repo, mirrorRemote, opt))
  {
  }

  /** When the repository does not exist, exactly one Git.Create is sent, to
      a server that exists and that depends on the name alone, and its answer
      is the result. */
  lemma CreateDispatchesToOwner(c: Cluster, repo: string, mirrorRemote: string, opt: Option<RemoteOpts>)
    requires c.probe(repo) == Some(RepoNotExist) && c.numServers > 0
    ensures var o := Create(c, repo, mirrorRemote, opt);
      var i := ServerIndex(c.md5(repo), c.numServers);
      var args := CreateArgs(repo, mirrorRemote, opt);
      i < c.numServers &&
      o.steps == [Probe(repo), Dispatch(i, "Git.Create", args)] &&
      o.err == c.call(i, args)
  {
  }

  /** The chosen server does not depend on the remote or the options, nor on
      anything of the cluster other than md5 and the number of servers. */
  lemma ShardDependsOnNameOnly(c1: Cluster, c2: Cluster, repo: string,
                               r1: string, o1: Option<RemoteOpts>, r2: string, o2: Option<RemoteOpts>)
    requires c1.md5 == c2.md5 && c1.numServers == c2.numServers > 0
    requires c1.probe(repo) == c2.probe(repo) == Some(RepoNotExist)
    ensures Create(c1, repo, r1, o1).steps[1].server == Create(c2, repo, r2, o2).steps[1].server
  {
  }

  /** Init asks the owning server for an empty repository: no remote and no
      options; Clone with a remote asks for a mirror of it. */
  lemma InitAndCloneArgs(c: Cluster, repo: string, remote: string, opt: Option<RemoteOpts>)
    requires c.probe(repo) == Some(RepoNotExist) && c.numServers > 0
    ensures var i := ServerIndex(c.md5(repo), c.numServers);
      Init(c, repo).steps == [Probe(repo), Dispatch(i, "Git.Create", CreateArgs(repo, "", None))]
      && (remote != "" ==>
            Clone(c, repo, remote, opt).steps == [Probe(repo), Dispatch(i, "Git.Create", CreateArgs(repo, remote, opt))])
  {
  }

  /** An empty remote is refused before anything is probed or sent. */
  lemma CloneEmptyRemote(c: Cluster, repo: string, opt: Option<RemoteOpts>)
    ensures Clone(c, repo, "", opt).err == Some(EmptyRemoteError)
    ensures Clone(c, repo, "", opt).steps == []
  {
  }

  /** The git command a shard runs to create a repository. */
  datatype Command =
    | CloneMirror(remote: string, dir: string, opt: Option<RemoteOpts>)   // git clone --mirror REMOTE DIR
    | InitBare(dir: string)                                               // git init --bare DIR

  /** Whether a command exited successfully, and its combined output. */
  datatype CommandResult = CommandResult(succeeded: bool, output: string)

  /** `path` lies at or below directory `dir`. */
  predicate Below(path: string, dir: string)
  {
    path == dir || HasPrefix(path, dir + "/")
  }

  /** The reply of Git.Remove. */
  class RemoveReply {
    var repoExists: bool

    constructor ()
      ensures !repoExists
    {
      repoExists := false;
    }
  }

  /** One gitserver shard (the Git RPC receiver) and the part of its file
      system below ReposDir. */
  class Git {
    const reposDir: string
    var dirs: set<string>    // the paths that exist
    var repos: set<string>   // the paths on which `git remote` succeeds

    ghost predicate Valid()
      reads this
    {
      repos <= dirs
    }

    constructor (reposDir: string, dirs: set<string>, repos: set<string>)
      requires repos <= dirs
      ensures Valid()
      ensures this.reposDir == reposDir && this.dirs == dirs && this.repos == repos
    {
      this.reposDir := reposDir;
      this.dirs := dirs;
      this.repos := repos;
    }

    /** path.Join(ReposDir, repo), for a clean repository name. */
    function Dir(repo: string): string
    {
      reposDir + "/" + repo
    }

    /** The directories above Dir(repo) and below ReposDir: one per '/' in
        the name. git creates those that are missing. */
    function LeadingDirs(repo: string): (r: set<string>)
      ensures forall k :: 0 <= k < |repo| && repo[k] == '/' ==> Dir(repo[..k]) in r
    {
      set k | 0 <= k < |repo| && repo[k] == '/' :: Dir(repo[..k])
    }

    /** Git.Create: a mirror clone when a remote is given, an empty bare
        repository otherwise; on failure the error carries the command's
        output. `run` gives the result of running a command. */
    method Create(args: CreateArgs, run: Command -> CommandResult) returns (err: Option<Error>, cmd: Command)
      requires Valid()
      modifies this
      ensures Valid()
      ensures args.mirrorRemote != "" ==> cmd == CloneMirror(args.mirrorRemote, Dir(args.repo), args.opt)
      ensures args.mirrorRemote == "" ==> cmd == InitBare(Dir(args.repo))
      ensures run(cmd).succeeded ==>
        err == None && dirs == old(dirs) + LeadingDirs(args.repo) + {Dir(args.repo)}
        && repos == old(repos) + {Dir(args.repo)}
      ensures !run(cmd).succeeded ==>
        err.Some? && err.value.Plain? &&
        Contains(err.value.message, args.repo) && HasSuffix(err.value.message, run(cmd).output) &&
        dirs == old(dirs) && repos == old(repos)
    {
      var dir := Dir(args.repo);
      var verb: string;
      if args.mirrorRemote != "" {
        cmd := CloneMirror(args.mirrorRemote, dir, args.opt);
        verb := "cloning";
      } else {
        cmd := InitBare(dir);
        verb := "initializing";
      }
      var result := run(cmd);
      if !result.succeeded {
        var head := verb + " repository ";
        var tail := " failed with output:\n" + result.output;
        var msg := head + args.repo + tail;
        ContainsMiddle(head, args.repo, tail);
        assert msg == (head + args.repo + " failed with output:\n") + result.output;
        SuffixOfConcat(head + args.repo + " failed with output:\n", result.output);
        return Some(Plain(msg)), cmd;
      }
      dirs := dirs + LeadingDirs(args.repo) + {dir};
      repos := repos + {dir};
      err := None;
    }

    /** Git.Remove: nothing to do for a missing directory; an existing one is
        reported as existing, refused when it is not a repository, and
        otherwise removed with everything below it. `removeAll` is the error
        os.RemoveAll would return. */
    method Remove(repo: string, reply: RemoveReply, removeAll: Option<Error>) returns (err: Option<Error>)
      requires Valid()
      modifies this, reply
      ensures Valid()
      ensures Dir(repo) !in old(dirs) ==>
        err == None && reply.repoExists == old(reply.repoExists) && dirs == old(dirs) && repos == old(repos)
      ensures Dir(repo) in old(dirs) ==> reply.repoExists
      ensures Dir(repo) in old(dirs) && Dir(repo) !in old(repos) ==>
        err == Some(Plain("not a repository: " + repo)) && dirs == old(dirs) && repos == old(repos)
      ensures Dir(repo) in old(repos) && removeAll.Some? ==>
        err == removeAll && dirs == old(dirs) && repos == old(repos)
      ensures Dir(repo) in old(repos) && removeAll.None? ==>
        err == None &&
        dirs == (set d | d in old(dirs) && !Below(d, Dir(repo))) &&
        repos == (set d | d in old(repos) && !Below(d, Dir(repo)))
    {
      var dir := Dir(repo);
      if dir !in dirs {
        return None;
      }
      reply.repoExists := true;
      if dir !in repos {
        return Some(Plain("not a repository: " + repo));
      }
      if removeAll.Some? {
        return removeAll;
      }
      dirs := set d | d in dirs && !Below(d, dir);
      repos := set d | d in repos && !Below(d, dir);
      err := None;
    }
  }

  /** A removal that succeeds is final: removing the same repository again
      succeeds without doing anything, whatever os.RemoveAll would say, and a fresh reply then says the
      repository did not exist. */
  method RemoveTwice(g: Git, repo: string, again: Option<Error>)
    returns (first: Option<Error>, second: Option<Error>, existedAgain: bool)
    requires g.Valid() && g.Dir(repo) in g.repos
    modifies g
    ensures first == None && second == None && !existedAgain
    ensures g.Valid() && g.Dir(repo) !in g.dirs
    ensures g.dirs == (set d | d in old(g.dirs) && !Below(d, g.Dir(repo)))
    ensures g.repos == (set d | d in old(g.repos) && !Below(d, g.Dir(repo)))
  {
    var reply := new RemoveReply();
    first := g.Remove(repo, reply, None);
    var replyAgain := new RemoveReply();
    second := g.Remove(repo, replyAgain, again);
    existedAgain := replyAgain.repoExists;
  }

  /** After a nested repository is created, a directory above it exists but
      is not a repository, so removing it is refused. */
  method CreateThenRemoveParent(g: Git, args: CreateArgs, k: nat, run: Command -> CommandResult)
    returns (createErr: Option<Error>, removeErr: Option<Error>, existed: bool)
    requires g.Valid() && k < |args.repo| && args.repo[k] == '/'
    requires g.Dir(args.repo[..k]) !in g.repos
    modifies g
    ensures var cmd := if args.mirrorRemote != "" then CloneMirror(args.mirrorRemote, g.Dir(args.repo), args.opt)
                       else InitBare(g.Dir(args.repo));
            run(cmd).succeeded ==>
              createErr == None && existed && removeErr == Some(Plain("not a repository: " + args.repo[..k]))
  {
    var cmd;
    createErr, cmd := g.Create(args, run);
    var reply := new RemoveReply();
    assert |g.Dir(args.repo[..k])| < |g.Dir(args.repo)|;
    removeErr := g.Remove(args.repo[..k], reply, None);
    existed := reply.repoExists;
  }
}

=== FILE: gzip.dfy ===
/** The gzip compression middleware (util/httputil/gzip.go).

    A header map is a `map` from canonical header names to their values.
    The client-facing response writer records what it is sent; the gzip
    writer records the uncompressed bytes it receives and whether it was
    closed (the compression itself is not modelled). The wrapped handler is a
    straight-line script of header edits and writes. */
module Gzip {
  import opened Base

  /** http.Header, keyed by canonical names. */
  type Header = map<string, seq<string>>

  /** http.Header.Add: appends a value. */
  function Add(h: Header, key: string, value: string): (r: Header)
    ensures key in r && r[key] == (if key in h then h[key] else []) + [value]
    ensures forall k :: k != key ==> (k in r <==> k in h) && (k in h ==> r[k] == h[k])
  {
    h[key := (if key in h then h[key] else []) + [value]]
  }

  /** How HeaderMatch compares a header value with a test string. */
  datatype MatchMode = HmContains | HmEquals

  predicate IsCutset(c: char)
  {
    c == ' ' || c == '\n' || c == '\t'
  }

  function TrimLeft(s: string): string
  {
    if s != [] && IsCutset(s[0]) then TrimLeft(s[1..]) else s
  }

  function TrimRight(s: string): string
  {
    if s != [] && IsCutset(s[|s| - 1]) then TrimRight(s[..|s| - 1]) else s
  }

  /** strings.Trim(s, " \n\t") */
  function Trim(s: string): string
  {
    TrimRight(TrimLeft(s))
  }

  /** One header value compared with a test string: both lower-cased, the
      value trimmed of blanks. */
  predicate ValueMatches(v: string, mode: MatchMode, test: string)
  {
    var lv := Trim(ToLower(v));
    match mode
    case HmContains => Contains(lv, ToLower(test))
    case HmEquals => lv == ToLower(test)
  }

  /** HeaderMatch: some value of the named header matches. */
  predicate HeaderMatch(hdr: Header, name: string, mode: MatchMode, test: string)
  {
    name in hdr && exists i :: 0 <= i < |hdr[name]| && ValueMatches(hdr[name][i], mode, test)
  }

  lemma AcceptEncodingLower()
    ensures ToLower("Accept-Encoding") == "accept-encoding"
  {
  }

  /** The value setVaryHeader adds is one HeaderMatch recognises. */
  lemma AcceptEncodingMatches()
    ensures ValueMatches("Accept-Encoding", HmContains, "accept-encoding")
  {
    AcceptEncodingLower();
    LowerIdempotentOn("accept-encoding");
    var v := "accept-encoding";
    assert TrimLeft(v) == v;
    assert TrimRight(v) == v;
    assert HasPrefix(v[0..], v);
  }

  /** Lower-casing a string already in lower case changes nothing. */
  lemma LowerIdempotentOn(s: string)
    requires forall i :: 0 <= i < |s| ==> !('A' <= s[i] <= 'Z')
    ensures ToLower(s) == s
  {
  }

  /** setVaryHeader: afterwards the response varies on Accept-Encoding;
      a header that already said so is left as it is; no other header is
      touched, and an existing Vary list is only extended. */
  function SetVaryHeader(hdr: Header): (r: Header)
    ensures HeaderMatch(r, "Vary", HmContains, "accept-encoding")
    ensures HeaderMatch(hdr, "Vary", HmContains, "accept-encoding") ==> r == hdr
    ensures forall k :: k != "Vary" ==> (k in r <==> k in hdr) && (k in hdr ==> r[k] == hdr[k])
    ensures "Vary" in hdr ==> |hdr["Vary"]| <= |r["Vary"]| && r["Vary"][..|hdr["Vary"]|] == hdr["Vary"]
  {
    if HeaderMatch(hdr, "Vary", HmContains, "accept-encoding") then hdr
    else
      var r := Add(hdr, "Vary", "Accept-Encoding");
      AcceptEncodingMatches();
      assert r["Vary"][|r["Vary"]| - 1] == "Accept-Encoding";
      r
  }

  /** Applying setVaryHeader twice is the same as applying it once. */
  lemma SetVaryIdempotent(hdr: Header)
    ensures SetVaryHeader(SetVaryHeader(hdr)) == SetVaryHeader(hdr)
  {
  }

  /** acceptsGzip: Accept-Encoding contains "gzip", or equals "*". */
  predicate AcceptsGzip(hdr: Header)
  {
    HeaderMatch(hdr, "Accept-Encoding", HmContains, "gzip")
    || HeaderMatch(hdr, "Accept-Encoding", HmEquals, "*")
  }

  /** Adding a value to a header matches exactly when the header matched
      before or the new value matches. */
  lemma {:induction false} HeaderMatchAdd(hdr: Header, name: string, v: string, mode: MatchMode, test: string)
    ensures HeaderMatch(Add(hdr, name, v), name, mode, test)
            <==> HeaderMatch(hdr, name, mode, test) || ValueMatches(v, mode, test)
  {
    var before := if name in hdr then hdr[name] else [];
    var r := Add(hdr, name, v);
    assert r[name] == before + [v];
    if HeaderMatch(hdr, name, mode, test) {
      var i :| 0 <= i < |hdr[name]| && ValueMatches(hdr[name][i], mode, test);
      assert r[name][i] == hdr[name][i];
    }
    if ValueMatches(v, mode, test) {
      assert r[name][|before|] == v;
    }
    if HeaderMatch(r, name, mode, test) {
      var i :| 0 <= i < |r[name]| && ValueMatches(r[name][i], mode, test);
      if i < |before| {
        assert r[name][i] == hdr[name][i];
      } else {
        assert r[name][i] == v;
      }
    }
  }

  /** Another Accept-Encoding value makes the client accept gzip iff it
      already did, or the value names gzip, or it is "*". */
  lemma AcceptsGzipAdd(hdr: Header, v: string)
    ensures AcceptsGzip(Add(hdr, "Accept-Encoding", v))
            <==> AcceptsGzip(hdr) || ValueMatches(v, HmContains, "gzip") || ValueMatches(v, HmEquals, "*")
  {
    HeaderMatchAdd(hdr, "Accept-Encoding", v, HmContains, "gzip");
    HeaderMatchAdd(hdr, "Accept-Encoding", v, HmEquals, "*");
  }

  /** Headers other than Accept-Encoding never matter. */
  lemma AcceptsGzipOnlyAcceptEncoding(hdr: Header, name: string, v: string)
    requires name != "Accept-Encoding"
    ensures AcceptsGzip(Add(hdr, name, v)) <==> AcceptsGzip(hdr)
  {
  }

  /** A typical browser header is accepted, so is the wildcard, and a request
      without Accept-Encoding is not. */
  lemma AcceptsGzipExamples()
    ensures AcceptsGzip(map["Accept-Encoding" := ["gzip, deflate"]])
    ensures AcceptsGzip(map["Accept-Encoding" := ["*"]])
    ensures !AcceptsGzip(map["Host" := ["example.com"]])
  {
    var v := "gzip, deflate";
    LowerIdempotentOn(v);
    LowerIdempotentOn("gzip");
    assert TrimLeft(v) == v;
    assert TrimRight(v) == v;
    assert HasPrefix(v[0..], "gzip");
    assert ValueMatches(map["Accept-Encoding" := [v]]["Accept-Encoding"][0], HmContains, "gzip");
    LowerIdempotentOn("*");
    assert TrimLeft("*") == "*" && TrimRight("*") == "*";
    assert ValueMatches(map["Accept-Encoding" := ["*"]]["Accept-Encoding"][0], HmEquals, "*");
  }

  /** setGzipHeaders: Content-Encoding becomes exactly "gzip", Content-Length
      is removed, every other header is kept. */
  function SetGzipHeaders(hdr: Header): (r: Header)
    ensures "Content-Encoding" in r && r["Content-Encoding"] == ["gzip"]
    ensures "Content-Length" !in r
    ensures forall k :: k != "Content-Encoding" && k != "Content-Length" ==>
              (k in r <==> k in hdr) && (k in hdr ==> r[k] == hdr[k])
  {
    hdr["Content-Encoding" := ["gzip"]] - {"Content-Length"}
  }

  /** The content types compressed by default. */
  const DefaultFilterTypes: seq<string> := ["text", "javascript", "json"]

  /** What defaultFilter decides: the Content-Type matches one of the default
      types. */
  predicate IsCompressible(hdr: Header)
  {
    exists i :: 0 <= i < |DefaultFilterTypes| && HeaderMatch(hdr, "Content-Type", HmContains, DefaultFilterTypes[i])
  }

  /** defaultFilter: tries the default types in order and stops at the first
      that matches. */
  method DefaultFilter(hdr: Header) returns (ok: bool)
    ensures ok == IsCompressible(hdr)
  {
    for i := 0 to |DefaultFilterTypes|
      invariant forall j :: 0 <= j < i ==> !HeaderMatch(hdr, "Content-Type", HmContains, DefaultFilterTypes[j])
    {
      ok := HeaderMatch(hdr, "Content-Type", HmContains, DefaultFilterTypes[i]);
      if ok {
        return true;
      }
    }
    return false;
  }

  /** defaultFilter compresses exactly the text, JavaScript and JSON types. */
  lemma CompressibleTypes(hdr: Header)
    ensures IsCompressible(hdr) <==>
              HeaderMatch(hdr, "Content-Type", HmContains, "text")
              || HeaderMatch(hdr, "Content-Type", HmContains, "javascript")
              || HeaderMatch(hdr, "Content-Type", HmContains, "json")
  {
    if HeaderMatch(hdr, "Content-Type", HmContains, "text") {
      assert HeaderMatch(hdr, "Content-Type", HmContains, DefaultFilterTypes[0]);
    } else if HeaderMatch(hdr, "Content-Type", HmContains, "javascript") {
      assert HeaderMatch(hdr, "Content-Type", HmContains, DefaultFilterTypes[1]);
    } else if HeaderMatch(hdr, "Content-Type", HmContains, "json") {
      assert HeaderMatch(hdr, "Content-Type", HmContains, DefaultFilterTypes[2]);
    }
  }

  /** A JSON response is compressed by the default filter. */
  lemma JsonIsCompressible()
    ensures IsCompressible(map["Content-Type" := ["application/json"]])
  {
    var v := "application/json";
    LowerIdempotentOn(v);
    LowerIdempotentOn("json");
    assert TrimLeft(v) == v;
    assert TrimRight(v) == v;
    assert v[12..][..4] == "json";
    assert HasPrefix(v[12..], "json");
    var h := map["Content-Type" := [v]];
    assert ValueMatches(h["Content-Type"][0], HmContains, DefaultFilterTypes[2]);
  }

  datatype Request = Request(httpMethod: string, header: Header)

  /** The filter a gzip handler runs: the one given, or defaultFilter. */
  function FilterOrDefault(filterFn: Option<(Header, Request) -> bool>): (Header, Request) -> bool
  {
    if filterFn.Some? then filterFn.value else (hdr: Header, r: Request) => IsCompressible(hdr)
  }

  /** What the client connection is sent, in order. */
  datatype Output = StatusLine(code: int) | Body(data: seq<byte>)

  /** What a handler does to its response writer. */
  datatype Action =
    | SetHeaderOp(key: string, value: string)
    | DelHeaderOp(key: string)
    | WriteHeaderOp(code: int)
    | WriteOp(data: seq<byte>)

  /** A plain response: the header map and what was sent. */
  datatype Response = Response(header: Header, out: seq<Output>)

  function StepPlain(s: Response, a: Action): Response
  {
    match a
    case SetHeaderOp(k, v) => s.(header := s.header[k := [v]])
    case DelHeaderOp(k) => s.(header := s.header - {k})
    case WriteHeaderOp(code) => s.(out := s.out + [StatusLine(code)])
    case WriteOp(b) => s.(out := s.out + [Body(b)])
  }

  /** A handler script run directly on the client's writer. */
  function RunPlain(s: Response, h: seq<Action>): Response
  {
    if h == [] then s else StepPlain(RunPlain(s, h[..|h| - 1]), h[|h| - 1])
  }

  /** The observable state of a gzipResponseWriter: the client writer's header
      and output, the bytes handed to the compressor, and the two flags. */
  datatype GzState = GzState(header: Header, out: seq<Output>, gzInput: seq<byte>, filtered: bool, dogzip: bool)

  /** applyFilter on the state. */
  function Filtered(s: GzState, filterFn: (Header, Request) -> bool, r: Request): GzState
  {
    if s.filtered then s
    else
      var z := filterFn(s.header, r);
      s.(header := if z then SetGzipHeaders(s.header) else s.header, filtered := true, dogzip := z)
  }

  /** One handler action performed through a gzipResponseWriter. */
  function StepGz(s: GzState, a: Action, filterFn: (Header, Request) -> bool, r: Request): GzState
  {
    match a
    case SetHeaderOp(k, v) => s.(header := s.header[k := [v]])
    case DelHeaderOp(k) => s.(header := s.header - {k})
    case WriteHeaderOp(code) =>
      var t := Filtered(s, filterFn, r);
      t.(out := t.out + [StatusLine(code)])
    case WriteOp(b) =>
      var t := Filtered(s, filterFn, r);
      if t.dogzip then t.(gzInput := t.gzInput + b) else t.(out := t.out + [Body(b)])
  }

  /** A handler script run through a gzipResponseWriter. */
  function RunGz(s: GzState, h: seq<Action>, filterFn: (Header, Request) -> bool, r: Request): GzState
  {
    if h == [] then s else StepGz(RunGz(s, h[..|h| - 1], filterFn, r), h[|h| - 1], filterFn, r)
  }

  /** The bytes a handler script writes, in order. */
  function AllBytes(h: seq<Action>): seq<byte>
  {
    if h == [] then []
    else AllBytes(h[..|h| - 1]) + (if h[|h| - 1].WriteOp? then h[|h| - 1].data else [])
  }

  /** The body bytes in an output sequence, in order. */
  function Bodies(out: seq<Output>): seq<byte>
  {
    if out == [] then []
    else Bodies(out[..|out| - 1]) + (if out[|out| - 1].Body? then out[|out| - 1].data else [])
  }

  lemma BodiesAppend(out: seq<Output>, o: Output)
    ensures Bodies(out + [o]) == Bodies(out) + (if o.Body? then o.data else [])
  {
    assert (out + [o])[..|out|] == out;
  }

  /** Once the filter has run, its decision never changes. */
  lemma {:induction false} DecisionLatched(s: GzState, h: seq<Action>, filterFn: (Header, Request) -> bool, r: Request)
    requires s.filtered
    ensures RunGz(s, h, filterFn, r).filtered
    ensures RunGz(s, h, filterFn, r).dogzip == s.dogzip
  {
    if h != [] {
      DecisionLatched(s, h[..|h| - 1], filterFn, r);
    }
  }

  /** All of a response's body goes one way: to the compressor when the
      filter chose gzip, otherwise straight to the client; and nothing is
      written before the filter has run. */
  lemma {:induction false} WritesLatched(init: GzState, h: seq<Action>, filterFn: (Header, Request) -> bool, r: Request)
    requires init.gzInput == [] && Bodies(init.out) == [] && !init.filtered && !init.dogzip
    ensures var s := RunGz(init, h, filterFn, r);
            (!s.filtered ==> !s.dogzip && AllBytes(h) == [])
            && (s.dogzip ==> s.gzInput == AllBytes(h) && Bodies(s.out) == [])
            && (!s.dogzip ==> s.gzInput == [] && Bodies(s.out) == AllBytes(h))
  {
    if h != [] {
      var p := h[..|h| - 1];
      var a := h[|h| - 1];
      WritesLatched(init, p, filterFn, r);
      var s := RunGz(init, p, filterFn, r);
      var t := Filtered(s, filterFn, r);
      assert RunGz(init, h, filterFn, r) == StepGz(s, a, filterFn, r);
      assert AllBytes(h) == AllBytes(p) + (if a.WriteOp? then a.data else []);
      match a
      case SetHeaderOp(_, _) =>
      case DelHeaderOp(_) =>
      case WriteHeaderOp(code) =>
        BodiesAppend(t.out, StatusLine(code));
      case WriteOp(b) =>
        if !t.dogzip {
          BodiesAppend(t.out, Body(b));
        }
    }
  }

  /** What an io.Writer's Write reports: the number of bytes written and
      the error, if any. */
  datatype WriteResult = WriteResult(n: int, err: Option<Error>)

  /** The client's http.ResponseWriter. `writeResult` gives what its Write
      reports for a slice of bytes. */
  class ResponseWriter {
    var header: Header
    var out: seq<Output>
    const writeResult: seq<byte> -> WriteResult

    constructor(header: Header, writeResult: seq<byte> -> WriteResult)
      ensures this.header == header && out == [] && this.writeResult == writeResult
    {
      this.header := header;
      out := [];
      this.writeResult := writeResult;
    }

    method SetHeader(key: string, value: string)
      modifies this
      ensures header == old(header)[key := [value]] && out == old(out)
    {
      header := header[key := [value]];
    }

    method DelHeader(key: string)
      modifies this
      ensures header == old(header) - {key} && out == old(out)
    {
      header := header - {key};
    }

    method WriteHeader(code: int)
      modifies this
      ensures out == old(out) + [StatusLine(code)] && header == old(header)
    {
      out := out + [StatusLine(code)];
    }

    method Write(b: seq<byte>) returns (n: int, err: Option<Error>)
      modifies this
      ensures out == old(out) + [Body(b)] && header == old(header)
      ensures n == writeResult(b).n && err == writeResult(b).err
    {
      out := out + [Body(b)];
      n, err := writeResult(b).n, writeResult(b).err;
    }
  }

  /** gzip.Writer: the uncompressed bytes it received, and whether it was
      closed. `writeResult` gives what its Write reports. */
  class GzipWriter {
    var input: seq<byte>
    var closed: bool
    const writeResult: seq<byte> -> WriteResult

    constructor(writeResult: seq<byte> -> WriteResult)
      ensures input == [] && !closed && this.writeResult == writeResult
    {
      input := [];
      closed := false;
      this.writeResult := writeResult;
    }

    method Write(b: seq<byte>) returns (n: int, err: Option<Error>)
      modifies this
      ensures input == old(input) + b && closed == old(closed)
      ensures n == writeResult(b).n && err == writeResult(b).err
    {
      input := input + b;
      n, err := writeResult(b).n, writeResult(b).err;
    }

    method Close()
      modifies this
      ensures closed && input == old(input)
    {
      closed := true;
    }
  }

  /** gzipResponseWriter: the compressor, the client's writer (whose header
      map is also this writer's), the request, the filter, and the two flags.
      `filterCalls` counts the calls of the filter. */
  class GzipResponseWriter {
    const gz: GzipWriter
    const w: ResponseWriter
    const r: Request
    const filterFn: (Header, Request) -> bool
    var filtered: bool
    var dogzip: bool
    ghost var filterCalls: nat

    /** The filter has been called once if it has run, never otherwise. */
    ghost predicate Valid()
      reads this
    {
      filterCalls == (if filtered then 1 else 0) && (!filtered ==> !dogzip)
    }

    constructor(gz: GzipWriter, w: ResponseWriter, r: Request, filterFn: (Header, Request) -> bool)
      ensures this.gz == gz && this.w == w && this.r == r && this.filterFn == filterFn
      ensures !filtered && !dogzip && Valid()
    {
      this.gz := gz;
      this.w := w;
      this.r := r;
      this.filterFn := filterFn;
      filtered := false;
      dogzip := false;
      filterCalls := 0;
    }

    function State(): GzState
      reads this, w, gz
    {
      GzState(w.header, w.out, gz.input, filtered, dogzip)
    }

    /** applyFilter: runs the filter the first time only, and on a yes sets
        the gzip headers. */
    method ApplyFilter()
      requires Valid()
      modifies this, w
      ensures Valid() && filtered
      ensures State() == Filtered(old(State()), filterFn, r)
      ensures filterCalls == old(filterCalls) + (if old(filtered) then 0 else 1)
      ensures w.out == old(w.out)
    {
      if !filtered {
        dogzip := filterFn(w.header, r);
        filterCalls := filterCalls + 1;
        if dogzip {
          w.header := SetGzipHeaders(w.header);
        }
        filtered := true;
      }
    }

    /** Write: after applyFilter, to the compressor iff gzip was chosen;
        what that writer reports is returned unchanged. */
    method Write(b: seq<byte>) returns (n: int, err: Option<Error>)
      requires Valid()
      modifies this, w, gz
      ensures Valid()
      ensures State() == StepGz(old(State()), WriteOp(b), filterFn, r)
      ensures var res := if dogzip then gz.writeResult(b) else w.writeResult(b);
              n == res.n && err == res.err
      ensures gz.closed == old(gz.closed)
    {
      ApplyFilter();
      if dogzip {
        n, err := gz.Write(b);
        return;
      }
      n, err := w.Write(b);
    }

    /** WriteHeader: after applyFilter, passed to the client's writer. */
    method WriteHeader(code: int)
      requires Valid()
      modifies this, w
      ensures Valid()
      ensures State() == StepGz(old(State()), WriteHeaderOp(code), filterFn, r)
    {
      ApplyFilter();
      w.WriteHeader(code);
    }
  }

  /** A handler script served on the client's writer. */
  method ServePlain(h: seq<Action>, w: ResponseWriter)
    modifies w
    ensures Response(w.header, w.out) == RunPlain(Response(old(w.header), old(w.out)), h)
  {
    for i := 0 to |h|
      invariant Response(w.header, w.out) == RunPlain(Response(old(w.header), old(w.out)), h[..i])
    {
      assert h[..i + 1][..i] == h[..i];
      match h[i]
      case SetHeaderOp(k, v) => w.SetHeader(k, v);
      case DelHeaderOp(k) => w.DelHeader(k);
      case WriteHeaderOp(code) => w.WriteHeader(code);
      case WriteOp(b) => var _, _ := w.Write(b);
    }
    assert h[..|h|] == h;
  }

  /** A handler script served through a gzipResponseWriter. */
  method ServeGzipped(h: seq<Action>, gzw: GzipResponseWriter)
    requires gzw.Valid()
    modifies gzw, gzw.w, gzw.gz
    ensures gzw.Valid()
    ensures gzw.State() == RunGz(old(gzw.State()), h, gzw.filterFn, gzw.r)
    ensures gzw.gz.closed == old(gzw.gz.closed)
  {
    for i := 0 to |h|
      invariant gzw.Valid() && gzw.gz.closed == old(gzw.gz.closed)
      invariant gzw.State() == RunGz(old(gzw.State()), h[..i], gzw.filterFn, gzw.r)
    {
      assert h[..i + 1][..i] == h[..i];
      match h[i]
      case SetHeaderOp(k, v) => gzw.w.SetHeader(k, v);
      case DelHeaderOp(k) => gzw.w.DelHeader(k);
      case WriteHeaderOp(code) => gzw.WriteHeader(code);
      case WriteOp(b) => var _, _ := gzw.Write(b);
    }
    assert h[..|h|] == h;
  }

  /** The handler Gzip returns, applied to one request. The response always
      varies on Accept-Encoding. HEAD requests and clients that do not accept
      gzip are served on the client's writer; otherwise the handler writes
      through a fresh gzipResponseWriter, and the compressor is closed exactly
      when gzip was chosen. The compressor is returned so that what it
      received can be stated; `gzWriteResult` is what its Write reports. */
  method Gzip(h: seq<Action>, filterFn: Option<(Header, Request) -> bool>, w: ResponseWriter, r: Request,
              gzWriteResult: seq<byte> -> WriteResult)
    returns (gz: GzipWriter?)
    modifies w
    ensures var hdr := SetVaryHeader(old(w.header));
            if r.httpMethod == "HEAD" || !AcceptsGzip(r.header) then
              gz == null && Response(w.header, w.out) == RunPlain(Response(hdr, old(w.out)), h)
            else
              var s := RunGz(GzState(hdr, old(w.out), [], false, false), h, FilterOrDefault(filterFn), r);
              gz != null && fresh(gz) && w.header == s.header && w.out == s.out
              && gz.input == s.gzInput && gz.closed == s.dogzip
  {
    var fn := FilterOrDefault(filterFn);
    w.header := SetVaryHeader(w.header);
    if r.httpMethod == "HEAD" {
      ServePlain(h, w);
      return null;
    }
    if !AcceptsGzip(r.header) {
      ServePlain(h, w);
      return null;
    }
    gz := new GzipWriter(gzWriteResult);
    var gzw := new GzipResponseWriter(gz, w, r, fn);
    ServeGzipped(h, gzw);
    if gzw.dogzip {
      gz.Close();
    }
  }
}

=== FILE: middleware.dfy ===
/** The federation routing tables of the generated service middleware and
    the dispatch decision every generated wrapper method makes
    (server/internal/middleware/gen_middleware.go).

    The generator's template is modelled by what one generated method does:
    `Invoke` runs the authentication, the custom or federated routing and
    the final call, and reports them as a trace of steps. Authentication,
    the custom handlers, the federation lookups and the services are
    parameters (an `Env`); tracing is left out. */
module Middleware {
  import opened Base

  /** The services federation applies to. */
  const FederatedServices: set<string> :=
    {"Accounts", "Auth", "Builds", "Defs", "Deltas", "MirrorRepos", "RegisteredClients",
     "RepoBadges", "RepoStatuses", "RepoTree", "Repos", "Search", "Units", "Users"}

  /** serviceIsFederated: the switch over the service name; it holds exactly
      for the fourteen listed services. */
  predicate ServiceIsFederated(service: string): (r: bool)
    ensures r <==> service in FederatedServices
  {
    service == "Accounts" || service == "Auth" || service == "Builds" || service == "Defs"
    || service == "Deltas" || service == "MirrorRepos" || service == "RegisteredClients"
    || service == "RepoBadges" || service == "RepoStatuses" || service == "RepoTree"
    || service == "Repos" || service == "Search" || service == "Units" || service == "Users"
  }

  /** The services the custom-federation switch names. */
  const CustomServices: set<string> :=
    {"Accounts", "Auth", "Builds", "Defs", "Repos", "MirrorRepos", "Users", "RegisteredClients"}

  /** methodHasCustomFederation: the nested switch over service and method.
      Only services the switch names have custom methods, and all of them are
      federated. */
  predicate MethodHasCustomFederation(service: string, methodName: string): (r: bool)
    ensures r ==> service in CustomServices
    ensures r ==> ServiceIsFederated(service)
  {
    if service == "Accounts" then methodName == "Update"
    else if service == "Auth" then methodName == "GetAccessToken" || methodName == "Identify"
    else if service == "Builds" then methodName == "List"
    else if service == "Defs" then methodName == "List"
    else if service == "Repos" then methodName == "Create" || methodName == "Get" || methodName == "List"
    else if service == "MirrorRepos" then methodName == "RefreshVCS"
    else if service == "Users" then
      methodName == "Get" || methodName == "CheckWhitelist" || methodName == "AddToWhitelist"
    else if service == "RegisteredClients" then true
    else false
  }

  /** Every method of RegisteredClients has a custom implementation. */
  lemma RegisteredClientsAllCustom(methodName: string)
    ensures MethodHasCustomFederation("RegisteredClients", methodName)
  {
  }

  /** Repos: exactly Create, Get and List; Accounts: exactly Update. */
  lemma ReposAndAccountsCustom(methodName: string)
    ensures MethodHasCustomFederation("Repos", methodName) <==> methodName in {"Create", "Get", "List"}
    ensures MethodHasCustomFederation("Accounts", methodName) <==> methodName == "Update"
  {
  }

  /** Users: exactly Get, CheckWhitelist and AddToWhitelist. */
  lemma UsersCustom(methodName: string)
    ensures MethodHasCustomFederation("Users", methodName)
            <==> methodName in {"Get", "CheckWhitelist", "AddToWhitelist"}
  {
  }

  /** Auth: exactly GetAccessToken and Identify; Builds and Defs: exactly
      List; MirrorRepos: exactly RefreshVCS. */
  lemma OtherServicesCustom(methodName: string)
    ensures MethodHasCustomFederation("Auth", methodName) <==> methodName in {"GetAccessToken", "Identify"}
    ensures MethodHasCustomFederation("Builds", methodName) <==> methodName == "List"
    ensures MethodHasCustomFederation("Defs", methodName) <==> methodName == "List"
    ensures MethodHasCustomFederation("MirrorRepos", methodName) <==> methodName == "RefreshVCS"
  {
  }

  /** A generated method as the generator sees it: its service and name, and
      the Go expressions that extract a repository URI or a user spec from its
      parameter ("" when the parameter type has none). */
  datatype MethodInfo = MethodInfo(service: string, name: string, repoURIExpr: string, userSpecExpr: string)

  /** The routing the template compiles into a method. */
  datatype Route =
    | CustomRoute                    // federated.Custom<Service><Method>
    | RepoFederated(expr: string)    // federated.RepoContext(ctx, &expr)
    | UserFederated(expr: string)    // federated.UserContext(ctx, expr)
    | DirectRoute                    // the wrapped service itself

  /** The template's choice for one method. */
  function RouteOf(m: MethodInfo): (r: Route)
    ensures r.CustomRoute? <==> MethodHasCustomFederation(m.service, m.name)
    ensures r.DirectRoute? ==> !ServiceIsFederated(m.service) || (m.repoURIExpr == "" && m.userSpecExpr == "")
  {
    if MethodHasCustomFederation(m.service, m.name) then CustomRoute
    else if ServiceIsFederated(m.service) && (m.repoURIExpr != "" || m.userSpecExpr != "") then
      if m.repoURIExpr != "" then RepoFederated(m.repoURIExpr) else UserFederated(m.userSpecExpr)
    else DirectRoute
  }

  /** The operation name passed to Authenticate: "<Service>.<Method>". */
  function OperationName(m: MethodInfo): string
  {
    m.service + "." + m.name
  }

  /** Which service set a call goes to: the wrapped one, or the one bound to a
      context produced by federation (named by that context). */
  datatype Target = Wrapped | Rebound(fedCtx: string)

  /** What a wrapper depends on. A federation lookup yields an error, no
      context (serve locally), or a context naming the authority to use. */
  datatype Env = Env(
    authenticate: string -> Option<Error>,
    custom: string -> Result<string>,
    repoContext: string -> Result<Option<string>>,
    userContext: string -> Result<Option<string>>,
    call: (string, Target) -> Result<string>)

  datatype Step =
    | Authenticate(op: string)
    | CallCustom(op: string)
    | FederateByRepo(expr: string)
    | FederateByUser(expr: string)
    | Call(op: string, target: Target)

  /** A step that runs the method itself: the custom handler or a service. */
  predicate IsServiceCall(s: Step)
  {
    s.CallCustom? || s.Call?
  }

  /** What a service-call step returns. */
  function CallResult(s: Step, env: Env): Result<string>
    requires IsServiceCall(s)
  {
    if s.CallCustom? then env.custom(s.op) else env.call(s.op, s.target)
  }

  /** The federation step of a federated route. */
  function FederationStep(r: Route): Step
    requires r.RepoFederated? || r.UserFederated?
  {
    if r.RepoFederated? then FederateByRepo(r.expr) else FederateByUser(r.expr)
  }

  /** One generated wrapper method: authenticate; then the custom handler,
      or the federation lookup followed by the call on the chosen target.
      The method itself runs at most once, as the last step, and its answer
      is the wrapper's. */
  function Invoke(m: MethodInfo, env: Env): (r: (Result<string>, seq<Step>))
    ensures 1 <= |r.1| <= 3 && r.1[0] == Authenticate(OperationName(m))
    ensures forall k :: 0 <= k < |r.1| - 1 ==> !IsServiceCall(r.1[k])
    ensures IsServiceCall(r.1[|r.1| - 1]) ==> r.0 == CallResult(r.1[|r.1| - 1], env)
  {
    var op := OperationName(m);
    match env.authenticate(op)
    case Some(e) => (Failure(e), [Authenticate(op)])
    case None =>
      match RouteOf(m)
      case CustomRoute => (env.custom(op), [Authenticate(op), CallCustom(op)])
      case DirectRoute => (env.call(op, Wrapped), [Authenticate(op), Call(op, Wrapped)])
      case RepoFederated(expr) => Federate(op, env.repoContext(expr), FederateByRepo(expr), env)
      case UserFederated(expr) => Federate(op, env.userContext(expr), FederateByUser(expr), env)
  }

  /** The tail of a federated method: a lookup error is returned; a context is
      used for the call, and without one the wrapped service is called. */
  function Federate(op: string, lookup: Result<Option<string>>, step: Step, env: Env): (Result<string>, seq<Step>)
  {
    match lookup
    case Failure(e) => (Failure(e), [Authenticate(op), step])
    case Success(None) => (env.call(op, Wrapped), [Authenticate(op), step, Call(op, Wrapped)])
    case Success(Some(c)) => (env.call(op, Rebound(c)), [Authenticate(op), step, Call(op, Rebound(c))])
  }

  /** Every wrapper authenticates first, under "<Service>.<Method>", and an
      authentication error ends the call before anything else happens. */
  lemma AuthenticatesFirst(m: MethodInfo, env: Env)
    ensures var (res, steps) := Invoke(m, env);
            |steps| >= 1 && steps[0] == Authenticate(m.service + "." + m.name)
            && (env.authenticate(m.service + "." + m.name).Some? ==>
                  res == Failure(env.authenticate(m.service + "." + m.name).value) && |steps| == 1)
  {
  }

  /** A method with custom federation is delegated to its custom handler and
      to nothing else. */
  lemma CustomDelegates(m: MethodInfo, env: Env)
    requires MethodHasCustomFederation(m.service, m.name)
    requires env.authenticate(OperationName(m)).None?
    ensures Invoke(m, env) == (env.custom(OperationName(m)), [Authenticate(OperationName(m)), CallCustom(OperationName(m))])
  {
  }

  /** Without custom federation, federation is consulted exactly when the
      service is federated and the parameter yields a repository URI or a
      user spec; the repository URI wins when both exist. */
  lemma FederationChoice(m: MethodInfo)
    requires !MethodHasCustomFederation(m.service, m.name)
    ensures (RouteOf(m).RepoFederated? || RouteOf(m).UserFederated?)
            <==> ServiceIsFederated(m.service) && (m.repoURIExpr != "" || m.userSpecExpr != "")
    ensures RouteOf(m).RepoFederated? <==> ServiceIsFederated(m.service) && m.repoURIExpr != ""
    ensures RouteOf(m).UserFederated? ==> m.repoURIExpr == "" && RouteOf(m).expr == m.userSpecExpr
    ensures RouteOf(m).RepoFederated? ==> RouteOf(m).expr == m.repoURIExpr
  {
  }

  /** A federated method calls the service exactly once, and only after a
      successful lookup; on a lookup error it returns that error. */
  lemma FederatedCallsAfterLookup(m: MethodInfo, env: Env)
    requires RouteOf(m).RepoFederated? || RouteOf(m).UserFederated?
    requires env.authenticate(OperationName(m)).None?
    ensures var lookup := if RouteOf(m).RepoFederated? then env.repoContext(RouteOf(m).expr)
                          else env.userContext(RouteOf(m).expr);
            var (res, steps) := Invoke(m, env);
            |steps| >= 2 && steps[1] == FederationStep(RouteOf(m))
            && (lookup.Failure? ==> res == Failure(lookup.error) && |steps| == 2)
            && (lookup.Success? ==>
                  var target := if lookup.value.Some? then Rebound(lookup.value.value) else Wrapped;
                  |steps| == 3 && steps[2] == Call(OperationName(m), target)
                  && res == env.call(OperationName(m), target))
  {
  }

  /** A method of a service that is not federated is never routed through
      federation, whatever its parameter holds. */
  lemma UnfederatedIsLocal(m: MethodInfo, env: Env)
    requires !ServiceIsFederated(m.service)
    requires env.authenticate(OperationName(m)).None?
    ensures Invoke(m, env) == (env.call(OperationName(m), Wrapped), [Authenticate(OperationName(m)), Call(OperationName(m), Wrapped)])
  {
  }
}

=== FILE: repos.dfy ===
/** The repository record of the repository updater
    (cmd/repo-updater/repos/repo.go): its identity string and its copy. */
module Repos {
  import opened Base

  newtype uint32 = x: int | 0 <= x < 0x1_0000_0000

  /** api.ExternalRepoSpec: a repository's ID on the external service that
      hosts it, and that service's type and ID. */
  datatype ExternalRepoSpec = ExternalRepoSpec(id: string, serviceType: string, serviceID: string)

  /** The identity string Repo.ID builds from an external spec. */
  function SpecID(spec: ExternalRepoSpec): string
  {
    spec.serviceType + ":" + spec.serviceID + ":" + spec.id
  }

  predicate NoColon(s: string)
  {
    forall i :: 0 <= i < |s| ==> s[i] != ':'
  }

  /** The position of the first ':' in `s`, if any. */
  function IndexOfColon(s: string): (r: Option<nat>)
    ensures r.Some? ==> r.value < |s| && s[r.value] == ':' && NoColon(s[..r.value])
    ensures r.None? ==> NoColon(s)
  {
    if s == [] then None
    else if s[0] == ':' then Some(0)
    else match IndexOfColon(s[1..])
      case None => None
      case Some(k) =>
        assert s[..k + 1] == [s[0]] + s[1..][..k];
        Some(k + 1)
  }

  /** Reads an identity string back as a spec: the text before the first ':'
      is the service type, the text up to the next ':' the service ID, and
      the rest the external ID. */
  function ParseSpecID(s: string): Option<ExternalRepoSpec>
  {
    match IndexOfColon(s)
    case None => None
    case Some(i) =>
      var rest := s[i + 1..];
      match IndexOfColon(rest)
      case None => None
      case Some(j) => Some(ExternalRepoSpec(rest[j + 1..], s[..i], rest[..j]))
  }

  /** The first ':' of `a + ":" + b` is the one after `a` when `a` has none. */
  lemma IndexOfColonAfter(a: string, b: string)
    requires NoColon(a)
    ensures IndexOfColon(a + ":" + b) == Some(|a|)
  {
    var s := a + ":" + b;
    assert s[|a|] == ':';
    assert forall j :: 0 <= j < |a| ==> s[j] == a[j];
    assert s[..|a|] == a;
  }

  /** The identity string can be read back into the spec it was built from,
      provided the service type and service ID contain no ':' (the external
      ID may). */
  lemma ParseSpecIDRoundTrip(spec: ExternalRepoSpec)
    requires NoColon(spec.serviceType) && NoColon(spec.serviceID)
    ensures ParseSpecID(SpecID(spec)) == Some(spec)
  {
    var s := SpecID(spec);
    var t := spec.serviceType;
    var rest := spec.serviceID + ":" + spec.id;
    assert s == t + ":" + rest;
    IndexOfColonAfter(t, rest);
    assert s[|t| + 1..] == rest;
    IndexOfColonAfter(spec.serviceID, spec.id);
    assert s[..|t|] == t;
    assert rest[..|spec.serviceID|] == spec.serviceID;
    assert rest[|spec.serviceID| + 1..] == spec.id;
  }

  /** Under the same condition, different specs never share an identity
      string. */
  lemma SpecIDInjective(a: ExternalRepoSpec, b: ExternalRepoSpec)
    requires NoColon(a.serviceType) && NoColon(a.serviceID)
    requires NoColon(b.serviceType) && NoColon(b.serviceID)
    ensures SpecID(a) == SpecID(b) <==> a == b
  {
    ParseSpecIDRoundTrip(a);
    ParseSpecIDRoundTrip(b);
  }

  /** Within one external service (same type and service ID, which may hold
      ':' as URLs do), repos have the same identity exactly when they have
      the same external ID. */
  lemma SpecIDInjectiveWithinService(a: ExternalRepoSpec, b: ExternalRepoSpec)
    requires a.serviceType == b.serviceType && a.serviceID == b.serviceID
    ensures SpecID(a) == SpecID(b) <==> a.id == b.id
  {
    var p := a.serviceType + ":" + a.serviceID + ":";
    assert SpecID(a) == p + a.id && SpecID(b) == p + b.id;
    assert (p + a.id)[|p|..] == a.id;
    assert (p + b.id)[|p|..] == b.id;
  }

  /** Without the condition the identity is ambiguous: a service ID holding
      a ':' collides with an external ID that starts after it. */
  lemma SpecIDCollision()
    ensures SpecID(ExternalRepoSpec("c", "a", "b:x")) == SpecID(ExternalRepoSpec("x:c", "a", "b"))
  {
  }

  /** Repo: a repository known to the updater. Times are instants. */
  class Repo {
    var internalID: uint32
    var name: string
    var description: string
    var language: string
    var fork: bool
    var enabled: bool
    var archived: bool
    var createdAt: int
    var updatedAt: int
    var deletedAt: int
    var externalRepo: ExternalRepoSpec

    constructor(name: string, externalRepo: ExternalRepoSpec)
      ensures this.name == name && this.externalRepo == externalRepo
      ensures internalID == 0 && description == "" && language == ""
      ensures !fork && !enabled && !archived && createdAt == 0 && updatedAt == 0 && deletedAt == 0
    {
      this.name := name;
      this.externalRepo := externalRepo;
      internalID := 0;
      description := "";
      language := "";
      fork := false;
      enabled := false;
      archived := false;
      createdAt := 0;
      updatedAt := 0;
      deletedAt := 0;
    }

    /** Repo.ID: the identity string of the external spec, which reads back
        as that spec when the service type and service ID hold no ':'. */
    function ID(): (id: string)
      reads this
      ensures NoColon(externalRepo.serviceType) && NoColon(externalRepo.serviceID) ==>
        ParseSpecID(id) == Some(externalRepo)
    {
      var spec := externalRepo;
      assert NoColon(spec.serviceType) && NoColon(spec.serviceID) ==> ParseSpecID(SpecID(spec)) == Some(spec) by {
        if NoColon(spec.serviceType) && NoColon(spec.serviceID) {
          ParseSpecIDRoundTrip(spec);
        }
      }
      SpecID(spec)
    }

    /** Every field of `this` equals the same field of `other`. */
    predicate SameFields(other: Repo)
      reads this, other
    {
      internalID == other.internalID && name == other.name && description == other.description
      && language == other.language && fork == other.fork && enabled == other.enabled
      && archived == other.archived && createdAt == other.createdAt && updatedAt == other.updatedAt
      && deletedAt == other.deletedAt && externalRepo == other.externalRepo
    }

    /** Repo.Clone: a new Repo whose fields all equal this one's. */
    method Clone() returns (c: Repo)
      ensures fresh(c) && c.SameFields(this)
    {
      c := new Repo(name, externalRepo);
      c.internalID := internalID;
      c.description := description;
      c.language := language;
      c.fork := fork;
      c.enabled := enabled;
      c.archived := archived;
      c.createdAt := createdAt;
      c.updatedAt := updatedAt;
      c.deletedAt := deletedAt;
    }
  }

  /** ID depends on the external spec only: repos that differ in every other
      field share it. */
  lemma IDDependsOnExternalRepoOnly(a: Repo, b: Repo)
    requires a.externalRepo == b.externalRepo
    ensures a.ID() == b.ID()
  {
  }

  /** A clone is independent of its original: renaming the clone leaves the
      original as it was, and both keep the same identity. */
  method CloneAndRename(r: Repo, newName: string) returns (c: Repo)
    ensures fresh(c) && c.name == newName && c.ID() == r.ID()
    ensures r.name == old(r.name)
  {
    c := r.Clone();
    c.name := newName;
  }
}
